=== FILE: README.md ===
# Insurance claims: cleaning, risk tests and feature preparation, in Dafny

This project models the data-handling core of an insurance-analytics
repository that works on a pipe-separated table of motor policies (premium,
claims, gender, province, postal code, …):

- `PreProcessData.clean` (src/preprocess.py) runs these stages on the table, in order:
  - normalise the column names;
  - drop rows missing too many critical fields;
  - fill defaults;
  - fold categorical text;
  - drop unused columns;
  - parse the transaction month;
  - add `loss_ratio`;
  - apply up to four guarded row filters.

  Each filter is committed only when it keeps more than 90% of the rows. An
  exception ends the run, and the frame keeps what the stages before it did.
- The script src/risk_hypothesis_testing.py adds `claim_occurred` and
  `margin`. It then compares three metrics between men and women, and
  between the two most frequent provinces and postal codes, with Welch's
  t-test.
- `HypothesisTester` (src/analysis/risk_hypothesis_testing.py) runs four
  tests. It records each outcome, or a message when there are too few
  groups, under a fixed key.
- `ModelingDataPreprocessor` (src/modeling/data_preprocessor.py) filters the
  claims. It turns the numeric columns into model features: infinities become
  missing, values are clipped to ±1e10, and missing values are replaced by
  the column mean.

## How the model is built

- **Cells and tables.** A cell (`Cells.Cell`) is missing, a finite real, ±∞,
  text, a boolean or a time stamp. Numeric work goes through an extended-real
  view (`Cells.Ext`), which follows IEEE rules for NaN and the infinities
  over exact reals. A table (`Tables.Table`) is a sequence of labels plus
  rows mapping labels to cells. Rows are addressed by position.
- **Exceptions.** pandas and scikit-learn exceptions are values of type
  `Results.Fault`. A stage of `clean` returns the frame it left plus the
  fault that stopped it, because `clean` catches the exception and keeps the
  partly updated frame. The script, the tester and the modeling class do not
  catch, so they return a `Result`.
- **Library calls.** Calls into SciPy and pandas that the model cannot see
  are parameters:
  - the t-test and the chi-squared test;
  - the 0.99 quantile;
  - date and number parsing, and reading a number as a date;
  - the `str` rendering of a cell.

  Each property holds for every choice of these functions.

Three behaviours of the code are easy to misread; the model follows the code:

- `loss_ratio` with a zero premium is ±∞ (or missing for 0/0), not missing.
- Filters 1-3 measure their 90% share against the row count on entry to
  `basic_filtering`. Only filter 4 uses the current count.
- `normalize_strings` turns a missing categorical cell into the text "nan".

## Model

| member | source | states |
|---|---|---|
| Names.TrimStartSpec | src/preprocess.py:30 | `lstrip` removes exactly the leading whitespace: the result is a suffix that starts with a non-space, and everything before it was whitespace |
| Names.TrimEndSpec | src/preprocess.py:30 | `rstrip` removes exactly the trailing whitespace: the result is a prefix that ends with a non-space, and everything after it was whitespace |
| Names.StripTrims | src/preprocess.py:30 | `strip()` yields a string trimmed at both ends, and leaves an already trimmed string as it is |
| Names.LowerKeepsSpaces | src/preprocess.py:30 | lower-casing keeps every whitespace and every space where it was and leaves no upper-case letter |
| Names.NormalizeIsNormal | src/preprocess.py:30 | a normalised column name is trimmed and holds no space and no capital |
| Names.NormalIsFixed | src/preprocess.py:30 | a name that is already normal is left unchanged by normalisation |
| Names.NormalizeIdempotent | src/preprocess.py:30 | normalising a name twice gives the same name as normalising it once |
| Names.FoldFixed | src/preprocess.py:92 | `strip().lower()` leaves a trimmed lower-case string unchanged |
| Names.FoldIdempotent | src/preprocess.py:92 | folded text is trimmed and lower-case, and folding it again changes nothing |
| Preprocess.CleanColumnNames | src/preprocess.py:29-30 | each label becomes its normalised form and every cell stays under its renamed label; when two labels normalise alike the fault is DuplicateLabels and the frame is unchanged |
| Preprocess.CleanedNamesAreNormal | src/preprocess.py:29-30 | after renaming, every column name is normal |
| Preprocess.CleanColumnNamesIdempotent | src/preprocess.py:29-30 | renaming an already renamed frame changes nothing |
| Preprocess.AbsentColumn | src/preprocess.py:34 | reports a missing critical column exactly when one of the listed names is not a column, and the name it reports is such a column |
| Preprocess.MissingCount | src/preprocess.py:34 | the number of missing critical fields of a row never exceeds the number of critical columns |
| Preprocess.MissingCountIgnores | src/preprocess.py:34-36 | removing a non-critical column from a row does not change its missing count, so dropping the helper column is harmless |
| Preprocess.DropHighMissingRows | src/preprocess.py:32-37 | KeyError exactly when a critical column is absent, with the frame unchanged; otherwise the helper column is gone, the labels are otherwise kept, and the rows removed are exactly those over the bound |
| Preprocess.KeptRowsTolerable | src/preprocess.py:36 | every surviving row has at most `max_missing` missing critical fields |
| Preprocess.TolerableRowsKept | src/preprocess.py:36 | every row within the bound survives |
| Preprocess.KeptRowsInOrder | src/preprocess.py:36 | the surviving rows keep their original order |
| Preprocess.MissingThreshold | src/preprocess.py:36 | a row with exactly `max_missing` missing fields is kept and one with one more is dropped (`<=` not `<`) |
| Preprocess.FillAll | src/preprocess.py:84-87 | filling keeps labels and row count; it fails exactly when a filled column is absent, with KeyError for such a column |
| Preprocess.FillAllCells | src/preprocess.py:84-87 | columns not filled are unchanged, a present value is never overwritten, and on success every missing cell of a filled column holds its default |
| Preprocess.FillDefaults | src/preprocess.py:84-87 | succeeds exactly when bank, gender and customvalueestimate all exist; any fault is KeyError; labels and rows are kept |
| Preprocess.FillDefaultsCells | src/preprocess.py:85-87 | other columns are untouched, present values are kept, and missing bank, gender and estimate cells become "Unknown", "Not specified" and 0 |
| Preprocess.NormalizeStrings | src/preprocess.py:89-92 | labels and row count are kept, and a well-formed frame stays well-formed |
| Preprocess.NormalizeStringsKeepsOthers | src/preprocess.py:89-92 | only covertype, covercategory and gender change: every other cell is left as it was |
| Preprocess.NormalizedCategorical | src/preprocess.py:90-92 | each categorical cell becomes trimmed lower-case text (`Render` gives `astype(str)`), text becomes its folded self, and a missing cell becomes "nan" |
| Preprocess.NormalizeStringsIdempotent | src/preprocess.py:89-92 | normalising the categorical columns a second time changes nothing |
| Preprocess.DropUselessColumns | src/preprocess.py:94-99 | exactly the five listed columns are removed, absent ones ignored; other cells and the column order are kept |
| Preprocess.DropUselessColumnsIdempotent | src/preprocess.py:94-99 | dropping the useless columns twice is the same as once |
| Preprocess.ConvertTransactionMonth | src/preprocess.py:40-42 | without the column the frame is unchanged; with it each cell of the column is converted and no other column changes |
| Preprocess.ToDate | src/preprocess.py:42 | a converted cell is a time stamp or missing (NaT); stamps stay, and a new stamp comes only from parsed text or from a number read as nanoseconds |
| Preprocess.ConvertedMonth | src/preprocess.py:42 | parsed text and converted numbers become their stamps; missing, infinite, boolean and unparseable cells become NaT |
| Preprocess.ConvertTransactionMonthIdempotent | src/preprocess.py:40-42 | converting the month a second time changes nothing |
| Preprocess.ToNumber | src/preprocess.py:45-46 | `to_numeric(errors='coerce')`: numbers and booleans keep their value, missing is NaN, text is what the number parser reads (NaN when it fails, possibly an infinity), a time stamp its nanosecond count |
| Preprocess.AddLossRatio | src/preprocess.py:44-46 | KeyError for absent claims, else for absent premium, with the frame unchanged; otherwise loss_ratio is the only new column and no other cell changes |
| Preprocess.LossRatioValue | src/preprocess.py:45-46 | the ratio times the premium gives the claims for a non-zero premium; a zero premium gives +∞, −∞ or missing by the sign of the claims; a missing operand gives missing |
| Filtering.Apply | src/preprocess.py:52-54 | a filter (`Holds`: premium > 0, claims >= 0, loss_ratio present, loss_ratio below the threshold, each false on a missing cell) is committed, and keeps exactly the rows passing it, iff the passing rows are more than 90% of the base; otherwise nothing changes; committed filters keep holding on every row |
| Filtering.RetainsIsShare | src/preprocess.py:53 | the integer test behind the 90% rule is exactly `count / base > 0.90` for a non-empty base, and false for an empty one |
| Filtering.ApplyComplete | src/preprocess.py:52-54 | no row passing every committed filter is ever lost |
| Filtering.ApplyExact | src/preprocess.py:52-54 | masks applied one after another compose: after each committed filter the frame is exactly the original rows passing every filter committed so far |
| Filtering.Quality | src/preprocess.py:48-68 | filters 1-3 keep the labels; the rows left are exactly the original rows that pass every committed filter, in order and with their repetitions |
| Filtering.QualityFaults | src/preprocess.py:52-58 | premium is checked before claims: KeyError for an absent column, TypeError for one holding text or dates; no fault exactly when both are present and comparable |
| Filtering.QualityMeasuresAgainstEntry | src/preprocess.py:49-67 | filters 1, 2 and 3 are each committed iff the rows passing them are more than 90% of the row count on entry, in that order, and filter 3 only when loss_ratio exists |
| Filtering.Outlier | src/preprocess.py:70-79 | filter 4 keeps labels and fault; it is skipped when loss_ratio is absent or the quantile raises, and it preserves the committed filters' consistency |
| Filtering.OutlierMeasuresAgainstCurrent | src/preprocess.py:72-75 | filter 4 is committed iff the rows below the 0.99 quantile are more than 90% of the rows it sees |
| Filtering.NoLossRatioSkipsRelated | src/preprocess.py:64-81 | without loss_ratio, filters 3 and 4 are both skipped and only the premium and claims filters can be committed |
| Filtering.BasicFiltering | src/preprocess.py:48-81 | the labels are kept; the rows left are exactly the input rows that pass every committed filter, in order and with their repetitions, so the rows removed are those failing one |
| Pipeline.Front | src/preprocess.py:104-111 | renaming, the missing-row drop and the defaults fail only by a label clash or KeyError for a required column; on success the frame is well formed, has claims and premium, and no helper column |
| Pipeline.Prepare | src/preprocess.py:104-115 | the stages up to add_loss_ratio fail only where the first three do; on success loss_ratio exists and no useless column remains |
| Pipeline.Clean | src/preprocess.py:101-120 | `clean` never gains rows; its faults are a label clash, KeyError for a required column or TypeError from the premium or claims filter; on success every committed filter holds on every row |
| Pipeline.PreparedColumns | src/preprocess.py:104-115 | a prepared frame's labels are the cleaned labels, less some, plus loss_ratio |
| Pipeline.CleanedColumnsAreNormal | src/preprocess.py:101-120 | every column of a cleaned frame has a normal name |
| Tables.SetColumn | src/risk_hypothesis_testing.py:9-10 | assignment overwrites an existing column in place or appends a new one; no other cell changes |
| Tables.ColumnOfSetColumn | src/preprocess.py:45-46 | a column written with `df[c] = cells` reads back as exactly `cells` |
| Tables.MapColumn | src/preprocess.py:85-87 | a per-cell map applied to one column changes only that column |
| Tables.MapColumnFixed | src/preprocess.py:85-87 | mapping a column whose every cell is a fixed point leaves the frame as it was |
| Tables.MapColumns | src/modeling/data_preprocessor.py:28-31 | a per-cell map on the named columns changes exactly those columns' cells |
| Tables.MapColumnsFixed | src/modeling/data_preprocessor.py:28-31 | mapping columns whose cells are all fixed points leaves the frame as it was |
| Tables.RenameColumns | src/preprocess.py:30 | relabelling keeps row count and moves each cell to the new label at its position |
| Tables.RenameSame | src/preprocess.py:30 | relabelling with the current labels changes nothing |
| Tables.DropColumns | src/preprocess.py:94-99 | dropping keeps the other labels in order and their cells, and removes the dropped labels from every row |
| Tables.Where | src/preprocess.py:36 | boolean selection keeps the labels and a subsequence of the rows: every kept row passes, every passing row is kept, and the rows removed are those failing |
| Cells.AsExt | src/preprocess.py:45-46 | a cell's numeric view is NaN exactly for missing, text and time stamps |
| Cells.FromExt | src/preprocess.py:45-46 | storing a numeric value gives a numeric cell that reads back as the same value |
| Cells.StoreReadBack | src/preprocess.py:45-46 | a stored non-boolean number reads back unchanged |
| Cells.LessIsStrictOrder | src/preprocess.py:52 | `<` is irreflexive and transitive, total on non-NaN values, and false whenever NaN is involved |
| Cells.Sub | src/risk_hypothesis_testing.py:10 | finite minus finite is finite, and NaN on either side gives NaN |
| Cells.SubAddsBack | src/risk_hypothesis_testing.py:10 | a finite difference added back to the subtrahend gives the minuend |
| Cells.Div | src/preprocess.py:45-46 | NaN propagates; a finite quotient times the divisor is the dividend; division by zero gives a signed infinity or NaN for 0/0 |
| Cells.Valid | src/risk_hypothesis_testing.py:14 | `dropna` keeps exactly the non-NaN values, and never more values than it was given |
| Cells.ValidIsFilter | src/risk_hypothesis_testing.py:14 | `dropna` is the order-preserving selection of the non-NaN values, so its length is their count and each keeps its multiplicity |
| Cells.ValidOfFinite | src/risk_hypothesis_testing.py:14 | dropping NaN from all-finite values keeps them all |
| Cells.SumBounds | src/analysis/risk_hypothesis_testing.py:11 | the sum of n values within [lo, hi] is within [n·lo, n·hi] |
| Cells.MeanWithin | src/modeling/data_preprocessor.py:34-35 | the mean of values within [lo, hi] is a finite value within [lo, hi] |
| Cells.FiniteMean | src/analysis/risk_hypothesis_testing.py:11 | the mean of all-finite values is their sum over their count |
| Cells.SumPositive | src/analysis/risk_hypothesis_testing.py:14 | a sum of positive values is positive |
| Cells.MeanPositive | src/analysis/risk_hypothesis_testing.py:14 | the mean of positive values is positive |
| Cells.SumOfDiffs | src/analysis/risk_hypothesis_testing.py:17 | the sum of differences is the difference of the sums |
| Cells.MeanOfDiffs | src/analysis/risk_hypothesis_testing.py:17 | the mean of differences is the difference of the means |
| Groups.Present | src/risk_hypothesis_testing.py:14 | `dropna` keeps, in order, exactly the non-missing values |
| Groups.Best | src/risk_hypothesis_testing.py:27 | the chosen candidate occurs at least as often as every other |
| Groups.TopTwo | src/risk_hypothesis_testing.py:27 | `value_counts().index[:2]` has two entries iff not all values are equal; the first is the most frequent value, the second the most frequent of the rest |
| Groups.BeforeIsStrictOrder | src/analysis/risk_hypothesis_testing.py:33-34 | the order on group keys is irreflexive, transitive and total |
| Groups.MinCell | src/analysis/risk_hypothesis_testing.py:33-34 | the smallest value is one of the values and precedes all others |
| Groups.SortedKeysMembers | src/analysis/risk_hypothesis_testing.py:33-34 | the group keys are exactly the distinct non-missing values |
| Groups.SortedKeysAscending | src/analysis/risk_hypothesis_testing.py:33-34 | the group keys are in strictly ascending order |
| Groups.SortedKeysDistinct | src/analysis/risk_hypothesis_testing.py:33-34 | no key appears twice |
| Groups.SortedKeysFirstTwo | src/analysis/risk_hypothesis_testing.py:34-41 | there are fewer than two keys iff all values are equal; otherwise the first two keys are the two smallest values |
| RiskScript.ComputeClaimMetrics | src/risk_hypothesis_testing.py:8-11 | KeyError or TypeError for claims, then KeyError or TypeError for premium; otherwise exactly claim_occurred and margin are added, rows and all other cells kept |
| RiskScript.ClaimMetricsCells | src/risk_hypothesis_testing.py:9-10 | claim_occurred is a boolean, true iff claims exceed 0; a finite margin plus the claims gives the premium; a missing operand gives a missing margin |
| RiskScript.ClaimMetricsFinite | src/risk_hypothesis_testing.py:9-10 | with finite claims c and premium p, claim_occurred is the boolean c > 0 and margin is p - c |
| RiskScript.ClaimMetricsExample | src/risk_hypothesis_testing.py:8-11 | on claims 100, 0, 50 and premiums 150, 100, 50: flags true, false, true and margins 50, 100, 0 |
| RiskScript.TTestOf | src/risk_hypothesis_testing.py:13-15 | KeyError(metric) exactly when either group lacks the metric |
| RiskScript.TTestDropsMissing | src/risk_hypothesis_testing.py:14 | the test runs on each group's metric with exactly its missing values removed, order kept |
| RiskScript.PresentDropped | src/risk_hypothesis_testing.py:14 | the non-missing values are an order-preserving selection of all of the column's values |
| RiskScript.DroppedUnique | src/risk_hypothesis_testing.py:14 | there is only one way to drop the missing values from a column |
| RiskScript.GenderSlice | src/risk_hypothesis_testing.py:19-20 | KeyError without gender; otherwise the rows whose lower-cased gender matches, in order, every matching row kept and only the non-matching ones removed |
| RiskScript.GenderSlicesDisjoint | src/risk_hypothesis_testing.py:19-20 | no row is both in the male slice and in the female slice |
| RiskScript.ValueSlice | src/risk_hypothesis_testing.py:28-29 | `df[df[col] == v]` keeps, in order, the rows holding v; every such row is kept and only the rows not holding v are removed |
| RiskScript.VerdictOf | src/risk_hypothesis_testing.py:23 | the verdict is Reject iff p < 0.05 |
| RiskScript.TopTwoValues | src/risk_hypothesis_testing.py:27-29 | KeyError without the column; IndexError iff all present values are equal; otherwise two distinct present values, the most frequent and the most frequent of the rest |
| RiskScript.AbsentMetric | src/risk_hypothesis_testing.py:13-14 | names a metric missing from one of the two groups exactly when there is one; none when both groups have every metric |
| RiskScript.TestLine | src/risk_hypothesis_testing.py:22-23 | a metric both groups have gives its Welch t-test p-value, reported as Reject exactly when p < 0.05 |
| RiskScript.TestMetrics | src/risk_hypothesis_testing.py:21-23 | succeeds iff both groups have every metric, else KeyError for one of them; one line per metric, in order, holding that metric's test and its verdict |
| RiskScript.TestGenderDifference | src/risk_hypothesis_testing.py:17-23 | KeyError without gender; compares "male" with "female" on the three metrics, verdicts matching p < 0.05 |
| RiskScript.GenderReportLines | src/risk_hypothesis_testing.py:19-22 | each line's p-value is the test of that metric on the male and female slices |
| RiskScript.TestTopTwoDifference | src/risk_hypothesis_testing.py:25-32 | a report compares two different values on the three metrics, verdicts matching p < 0.05 |
| RiskScript.TopTwoReport | src/risk_hypothesis_testing.py:27-31 | a top-two failure is the report's failure; otherwise the report compares the top two values and each line tests the two value slices |
| RiskScript.RunComparisons | src/risk_hypothesis_testing.py:46-48 | three reports, each with verdicts matching its p-values |
| RiskScript.RunComparisonsGroups | src/risk_hypothesis_testing.py:46-48 | the reports are gender, province and postal code, in that order, comparing male with female and each column's top two values |
| RiskScript.RunAllTests | src/risk_hypothesis_testing.py:43-48 | a metrics failure ends the run with its fault; otherwise three reports whose verdicts match their p-values |
| RiskScript.MetricsPresent | src/risk_hypothesis_testing.py:8-11 | after computing the metrics, claim_occurred, totalclaims and margin are all columns |
| RiskScript.TopTwoTestRuns | src/risk_hypothesis_testing.py:25-29 | with the metrics present, a province or postal-code comparison fails only when the column lacks two distinct values |
| RiskScript.GenderTestRuns | src/risk_hypothesis_testing.py:17-22 | with the metrics present, the gender comparison succeeds iff the gender column exists |
| Hypothesis.NewTester | src/analysis/risk_hypothesis_testing.py:6-8 | the constructor's state: the tester works on the frame it is given and starts with no results, the state `FreshRunKeys` builds on |
| Hypothesis.Verdict | src/analysis/risk_hypothesis_testing.py:30 | the record holds the p-value and rejects H0 iff p < 0.05 |
| Hypothesis.UpdatesKeepConsistent | src/analysis/risk_hypothesis_testing.py:30 | a test keeps every recorded verdict in agreement with its p-value |
| Hypothesis.IndicatorSum | src/analysis/risk_hypothesis_testing.py:11 | the claim mask is all 0 or 1 and sums to the number of rows with a claim |
| Hypothesis.ClaimFrequency | src/analysis/risk_hypothesis_testing.py:10-11 | fails exactly with the claims column's KeyError or TypeError |
| Hypothesis.ClaimFrequencyIsShare | src/analysis/risk_hypothesis_testing.py:10-11 | an empty group gives NaN; otherwise the frequency is the share of rows with a claim, within [0, 1] |
| Hypothesis.CountIfBound | src/analysis/risk_hypothesis_testing.py:11 | no more rows satisfy a predicate than there are rows |
| Hypothesis.ClaimSeverity | src/analysis/risk_hypothesis_testing.py:13-14 | fails exactly with the claims column's KeyError or TypeError |
| Hypothesis.ClaimSeverityPositive | src/analysis/risk_hypothesis_testing.py:13-14 | the severity is NaN iff no row has a claim, and otherwise positive |
| Hypothesis.GroupMargin | src/analysis/risk_hypothesis_testing.py:16-17 | KeyError for absent premium; succeeds iff premium and claims are both present and numeric |
| Hypothesis.GroupMarginIsDifference | src/analysis/risk_hypothesis_testing.py:16-17 | for a non-empty group of finite values, the mean margin is the mean premium minus the mean claims |
| Hypothesis.Aggregate | src/analysis/risk_hypothesis_testing.py:21 | succeeds iff every group's aggregate does, with one value per group in order; a failure is some group's failure |
| Hypothesis.MapGroups | src/analysis/risk_hypothesis_testing.py:20-21 | per-group aggregates in key order, each the aggregate of that key's rows |
| Hypothesis.GroupKeysAre | src/analysis/risk_hypothesis_testing.py:33-34 | the group keys are the distinct non-missing values of the column, each once, ascending |
| Hypothesis.TestProvinceRisk | src/analysis/risk_hypothesis_testing.py:19-30 | KeyError without province; a test records its outcome under province_risk, keeps the frame and other results, or on a fault changes nothing |
| Hypothesis.ProvinceRiskRecord | src/analysis/risk_hypothesis_testing.py:23-30 | the message is recorded iff there are fewer than two provinces; otherwise the p-value is the chi-squared test of province against claim occurrence |
| Hypothesis.ContingencyPairs | src/analysis/risk_hypothesis_testing.py:28 | the crosstab counts one (province, claimed) pair per row with a province, and only such rows |
| Hypothesis.TestZipRisk | src/analysis/risk_hypothesis_testing.py:32-44 | KeyError without postalcode; any other fault is KeyError or TypeError from the claims; records its outcome under zip_risk, or on a fault changes nothing |
| Hypothesis.ZipRiskRecord | src/analysis/risk_hypothesis_testing.py:36-44 | with two codes, KeyError iff there is no claims column and TypeError iff either sample holds text or time stamps; the message is recorded iff there are fewer than two postal codes; otherwise the p-value is the test of claims between the first two codes in sorted order |
| Hypothesis.Margins | src/analysis/risk_hypothesis_testing.py:56-57 | the margins of a group form a single margin column, one per row, whose value in each row is that row's premium minus its claims, as `GroupMargin` averages them |
| Hypothesis.TestZipMargin | src/analysis/risk_hypothesis_testing.py:46-60 | KeyError without postalcode; records its outcome under zip_margin, or on a fault changes nothing |
| Hypothesis.ZipMarginRecord | src/analysis/risk_hypothesis_testing.py:49-60 | the message is recorded iff there are fewer than two postal codes; otherwise the p-value is the test of margins between the first two codes |
| Hypothesis.TestGenderRisk | src/analysis/risk_hypothesis_testing.py:62-78 | KeyError without gender; records its outcome under gender_risk, or on a fault changes nothing |
| Hypothesis.ClaimIndicatorMean | src/analysis/risk_hypothesis_testing.py:70-75 | the 0/1 claim indicators the gender test compares average to that slice's claim frequency |
| Hypothesis.GenderRiskRecord | src/analysis/risk_hypothesis_testing.py:66-78 | the message is recorded iff either slice is empty; otherwise the p-value is the test of the claim indicators of men against women |
| Hypothesis.UpdatesExtend | src/analysis/risk_hypothesis_testing.py:80-85 | one test's update is an extension by its own key |
| Hypothesis.ExtendsChain | src/analysis/risk_hypothesis_testing.py:80-85 | running two tests in sequence extends the results by both tests' keys |
| Hypothesis.ExtendsWiden | src/analysis/risk_hypothesis_testing.py:80-85 | a run stopped by a fault extends by any larger set of keys |
| Hypothesis.RunFirstHalf | src/analysis/risk_hypothesis_testing.py:81-82 | the province and zip-risk tests extend the results by their two keys |
| Hypothesis.RunSecondHalf | src/analysis/risk_hypothesis_testing.py:83-84 | the zip-margin and gender tests extend the results by their two keys |
| Hypothesis.RunAllTests | src/analysis/risk_hypothesis_testing.py:80-85 | running all four keeps the frame, every unrelated entry and the agreement of verdicts with p-values; when no test raises, exactly the four keys are added |
| Hypothesis.FreshRunKeys | src/analysis/risk_hypothesis_testing.py:80-85 | a fresh tester that completes has exactly the four result keys, each tested verdict agreeing with its p-value |
| Modeling.NewPreprocessor | src/modeling/data_preprocessor.py:11-13 | the constructor's state: the working frame starts as a copy of the loaded data, which `filter_claims` then narrows while `data` stays as loaded |
| Modeling.FilterClaims | src/modeling/data_preprocessor.py:15-18 | a condition other than ">0" returns the frame unchanged; ">0" raises KeyError or TypeError for an absent or non-numeric target, else keeps, in order, exactly the rows with target > 0; the returned frame is the stored one, the data untouched |
| Modeling.FilterClaimsIdempotent | src/modeling/data_preprocessor.py:15-18 | filtering claims a second time changes nothing |
| Modeling.SelectFeatures | src/modeling/data_preprocessor.py:24 | the features are exactly the numeric columns other than the target, in order, with their cells |
| Modeling.Sanitize | src/modeling/data_preprocessor.py:28-31 | replacing infinities and clipping keeps labels and rows |
| Modeling.SanitizeBounds | src/modeling/data_preprocessor.py:28-31 | each sanitised feature is missing or within ±1e10; in-range numbers are kept, larger ones clipped to the nearer bound, and only infinities become missing |
| Modeling.MeanOfBounded | src/modeling/data_preprocessor.py:34-35 | the mean of a column of bounded or missing values, not all missing, is a finite value within the bounds |
| Modeling.ImputeBounds | src/modeling/data_preprocessor.py:34-38 | after imputation of bounded features every cell is a finite number within the bounds and every present value is kept |
| Modeling.PrepareFeatures | src/modeling/data_preprocessor.py:20-40 | KeyError without the target, ValueError with no rows or no numeric feature; otherwise X has the numeric non-target columns and y is the target column, both with one entry per row |
| Modeling.PreparedFeaturesBounded | src/modeling/data_preprocessor.py:24-38 | every returned feature is a finite number within ±1e10, and a feature that already was one is returned unchanged |

## Left out

- Reading and writing files is not modelled: `detect_delimiter`, `load_data` (both classes and the script), `save_cleaned` and the constructor's `read_csv`. The frame is an input.
- `split_data` is not modelled: `train_test_split` is library randomness.
- src/eda.py and the modelling and plotting modules outside `ModelingDataPreprocessor` are not part of this model.
- Printing is left out: progress messages and the script's `:.4f` p-value formatting. A report holds the exact p-value and the verdict.
- The statistics themselves are parameters: Welch's t-test, `chi2_contingency`, and the 0.99 quantile. The properties hold for any function. `crosstab` is represented by its (province, claimed) pairs, not by counts.
- Floating point is replaced by exact reals with IEEE NaN and infinity rules. Rounding, signed zero and int64 overflow are not modelled.
- The pandas index is not modelled; rows are positional. A consequence left out: after `filter_claims`, `prepare_features` returns X with a fresh index while y keeps the filtered one.
- dtype inference is not modelled: a column is numeric when its cells are. A column with no rows therefore counts as numeric.
- Booleans count as numbers 0 and 1 in comparisons, in division and when averaged, as in NumPy. Python's `1 == True` equality across kinds, used by `==` slicing and grouping, is not modelled: a boolean cell never equals a number.
- Preprocess.CleanColumnNames: when two labels normalise to the same name pandas keeps both duplicates; the model reports DuplicateLabels and leaves the frame unchanged.
- Names.Lower: only ASCII letters are lower-cased, and `strip` removes only ASCII whitespace; Unicode case mapping and Unicode spaces are not modelled.
- Preprocess.NormalizeStrings: the text `astype(str)` gives a non-text cell is the `show` parameter; only a missing cell's "nan" is fixed.
- Preprocess.ConvertTransactionMonth: date parsing is the `parseDate` parameter and the rounding and range of a number read as nanoseconds is the `numberToDate` parameter; the formats pandas accepts are not modelled, and a column made only of booleans, which pandas rejects with TypeError, is treated cell by cell as NaT. pandas 2 also infers one format from the first non-missing string and applies it to the whole column, so whether a cell parses can depend on other cells, which a per-cell `parseDate` cannot express.
- Preprocess.ToNumber: which strings read as numbers, NaN or infinities is the `parseNumber` parameter; the spellings pandas accepts are not modelled.
- Hypothesis.TestZipRisk: the exception `ttest_ind` raises on text or time stamps is taken to be TypeError; SciPy's exact exception class is not modelled.
- RiskScript.GenderSlice: `.str.lower()` on a gender column with no strings at all raises AttributeError; the model treats such cells as not matching.
- RiskScript.ComputeClaimMetrics: when both totalpremium and totalclaims are boolean columns, NumPy refuses the subtraction with TypeError; the model subtracts them as 0 and 1. The claim_occurred column is not affected.
- RiskScript.ComputeClaimMetrics: when the premium column fails, pandas has already added claim_occurred to the caller's frame; the model returns only the fault.
- Hypothesis.GroupMargin: two boolean columns subtracted raise TypeError in NumPy; the model subtracts them as 0 and 1 and succeeds.
- Hypothesis.Margins: two boolean columns subtracted raise TypeError in NumPy; the model subtracts them as 0 and 1.
- Hypothesis.TestZipMargin: through GroupMargin and Margins, two boolean premium and claims columns give margins here where NumPy raises TypeError.
- Groups.TopTwo: among equally frequent values the model takes the one seen first; the order pandas gives ties is not modelled.
- Groups.Before: for keys of mixed kinds pandas' sorting falls back to an order that puts numbers before text, as the model does, but it differs in three cases. Booleans sort among the numbers by value, not before them. Time stamps mixed with numbers raise TypeError. Time stamps sort before text, not after.
- Hypothesis.TestProvinceRisk: the per-province frequencies are computed only for their exceptions, as in the code; their values are not used.
- Modeling.Impute: scikit-learn drops a feature with no observed value and the rebuilt frame then fails; the model reports ValueError for that case without modelling the intermediate array.

=== FILE: cells.dfy ===
/** Table cells and the floating-point arithmetic pandas applies to them,
    over exact reals with explicit infinities and an explicit NaN. */
module Cells {
  import Seqs

  /** One cell of a data frame. `Missing` stands for everything `isna`
      reports: NaN, NaT and None. A time stamp counts nanoseconds since the
      epoch. */
  datatype Cell =
    | Missing
    | Fin(x: real)
    | Inf
    | NegInf
    | Text(s: string)
    | Flag(b: bool)
    | Stamp(t: int)

  /** The numeric view of a cell: an extended real, or NaN. */
  datatype Ext = Finite(v: real) | PlusInf | MinusInf | NaN

  /** Cells pandas can compare with, and subtract from, a number. Text and
      time stamps raise a TypeError instead. */
  predicate IsNumeric(c: Cell)
  {
    c.Missing? || c.Fin? || c.Inf? || c.NegInf? || c.Flag?
  }

  /** The value pandas computes with; booleans count as 0 and 1. */
  function AsExt(c: Cell): (e: Ext)
    ensures e.NaN? <==> !c.Fin? && !c.Inf? && !c.NegInf? && !c.Flag?
  {
    match c
    case Fin(x) => Finite(x)
    case Inf => PlusInf
    case NegInf => MinusInf
    case Flag(b) => Finite(if b then 1.0 else 0.0)
    case _ => NaN
  }

  /** A computed value stored back into a column; NaN is stored as missing. */
  function FromExt(e: Ext): (c: Cell)
    ensures IsNumeric(c) && !c.Flag?
    ensures AsExt(c) == e
  {
    match e
    case Finite(v) => Fin(v)
    case PlusInf => Inf
    case MinusInf => NegInf
    case NaN => Missing
  }

  /** Storing and reading back loses nothing for numeric non-boolean cells. */
  lemma StoreReadBack(c: Cell)
    requires IsNumeric(c) && !c.Flag?
    ensures FromExt(AsExt(c)) == c
  {
  }

  /** IEEE `<`: every comparison with NaN is false. */
  predicate Less(a: Ext, b: Ext)
  {
    match (a, b)
    case (Finite(x), Finite(y)) => x < y
    case (MinusInf, Finite(_)) => true
    case (MinusInf, PlusInf) => true
    case (Finite(_), PlusInf) => true
    case _ => false
  }

  /** `c > 0` for one cell: a missing cell, like NaN, compares false. */
  predicate AboveZero(c: Cell)
  {
    Less(Finite(0.0), AsExt(c))
  }

  /** IEEE `>=`. */
  predicate AtLeast(a: Ext, b: Ext)
  {
    Less(b, a) || (a == b && !a.NaN?)
  }

  /** `Less` is a strict total order on the non-NaN values and NaN is
      unordered. */
  lemma LessIsStrictOrder(a: Ext, b: Ext, c: Ext)
    ensures !Less(a, a)
    ensures Less(a, b) && Less(b, c) ==> Less(a, c)
    ensures !a.NaN? && !b.NaN? ==> Less(a, b) || a == b || Less(b, a)
    ensures a.NaN? ==> !Less(a, b) && !Less(b, a)
  {
  }

  /** IEEE subtraction on extended reals. */
  function Sub(a: Ext, b: Ext): (r: Ext)
    ensures a.Finite? && b.Finite? ==> r.Finite?
    ensures a.NaN? || b.NaN? ==> r.NaN?
  {
    match (a, b)
    case (Finite(x), Finite(y)) => Finite(x - y)
    case (NaN, _) => NaN
    case (_, NaN) => NaN
    case (PlusInf, PlusInf) => NaN
    case (MinusInf, MinusInf) => NaN
    case (PlusInf, _) => PlusInf
    case (MinusInf, _) => MinusInf
    case (Finite(_), PlusInf) => MinusInf
    case (Finite(_), MinusInf) => PlusInf
  }

  /** A finite difference adds back to its minuend. */
  lemma SubAddsBack(x: real, y: real)
    ensures Sub(Finite(x), Finite(y)).Finite?
    ensures Sub(Finite(x), Finite(y)).v + y == x
  {
  }

  /** IEEE division on extended reals, with an unsigned zero divisor taken as
      +0. A zero divisor gives an infinity of the dividend's sign, and 0/0 and
      inf/inf give NaN. */
  function Div(a: Ext, b: Ext): (r: Ext)
    ensures a.NaN? || b.NaN? ==> r.NaN?
    ensures a.Finite? && b.Finite? && b.v != 0.0 ==> r.Finite? && r.v * b.v == a.v
    ensures a.Finite? && b == Finite(0.0) ==>
      (a.v > 0.0 ==> r.PlusInf?) && (a.v < 0.0 ==> r.MinusInf?) && (a.v == 0.0 ==> r.NaN?)
  {
    match (a, b)
    case (NaN, _) => NaN
    case (_, NaN) => NaN
    case (Finite(x), Finite(y)) =>
      if y != 0.0 then Finite(x / y)
      else if x > 0.0 then PlusInf
      else if x < 0.0 then MinusInf
      else NaN
    case (Finite(_), _) => Finite(0.0)
    case (PlusInf, Finite(y)) => if y >= 0.0 then PlusInf else MinusInf
    case (MinusInf, Finite(y)) => if y >= 0.0 then MinusInf else PlusInf
    case (_, _) => NaN
  }

  predicate NotNaN(e: Ext)
  {
    !e.NaN?
  }

  /** The values that are not NaN, in order: what `skipna` keeps. */
  function Valid(s: seq<Ext>): (r: seq<Ext>)
    ensures |r| <= |s|
    ensures forall e :: e in r <==> e in s && !e.NaN?
  {
    if s == [] then []
    else (if s[0].NaN? then [] else [s[0]]) + Valid(s[1..])
  }

  /** `dropna` is the order-preserving selection of the values that are
      not NaN, so each such value keeps its multiplicity. */
  lemma {:induction false} ValidIsFilter(s: seq<Ext>)
    ensures Valid(s) == Seqs.Filter(s, NotNaN)
    ensures |Valid(s)| == Seqs.CountIf(s, NotNaN)
    decreases |s|
  {
    if s != [] {
      ValidIsFilter(s[1..]);
    }
  }

  /** Sum of the finite values of `s`. */
  function FiniteSum(s: seq<Ext>): real
  {
    if s == [] then 0.0
    else (if s[0].Finite? then s[0].v else 0.0) + FiniteSum(s[1..])
  }

  /** `Series.mean()`: NaN values are skipped; an empty remainder or a mix
      of both infinities gives NaN; one infinity dominates. */
  function Mean(s: seq<Ext>): Ext
  {
    var xs := Valid(s);
    if |xs| == 0 then NaN
    else if PlusInf in xs && MinusInf in xs then NaN
    else if PlusInf in xs then PlusInf
    else if MinusInf in xs then MinusInf
    else Finite(FiniteSum(xs) / |xs| as real)
  }

  predicate AllFinite(s: seq<Ext>)
  {
    forall i :: 0 <= i < |s| ==> s[i].Finite?
  }

  lemma {:induction false} ValidOfFinite(s: seq<Ext>)
    requires AllFinite(s)
    ensures Valid(s) == s
    decreases |s|
  {
    if s != [] {
      ValidOfFinite(s[1..]);
    }
  }

  lemma {:induction false} SumBounds(s: seq<Ext>, lo: real, hi: real)
    requires forall i :: 0 <= i < |s| ==> s[i].Finite? && lo <= s[i].v <= hi
    ensures |s| as real * lo <= FiniteSum(s) <= |s| as real * hi
    decreases |s|
  {
    if s != [] {
      SumBounds(s[1..], lo, hi);
    }
  }

  /** The mean of finite values lies between their bounds. */
  lemma MeanWithin(s: seq<Ext>, lo: real, hi: real)
    requires |s| > 0
    requires forall i :: 0 <= i < |s| ==> s[i].Finite? && lo <= s[i].v <= hi
    ensures Mean(s).Finite? && lo <= Mean(s).v <= hi
  {
    assert AllFinite(s);
    FiniteMean(s);
    var total, n := FiniteSum(s), |s| as real;
    SumBounds(s, lo, hi);
    QuotientWithin(Mean(s), total, n, lo, hi);
  }

  lemma QuotientWithin(e: Ext, total: real, n: real, lo: real, hi: real)
    requires n > 0.0 && e == Finite(total / n) && n * lo <= total <= n * hi
    ensures e.Finite? && lo <= e.v <= hi
  {
    QuotientBounds(total, n, lo, hi);
  }

  /** Over finite values the mean is the sum divided by the count. */
  lemma FiniteMean(s: seq<Ext>)
    requires |s| > 0 && AllFinite(s)
    ensures Mean(s) == Finite(FiniteSum(s) / |s| as real)
  {
    ValidOfFinite(s);
    assert PlusInf !in s && MinusInf !in s;
  }

  lemma QuotientBounds(total: real, n: real, lo: real, hi: real)
    requires n > 0.0 && n * lo <= total <= n * hi
    ensures lo <= total / n <= hi
  {
    var m := total / n;
    assert total == m * n;
  }

  predicate Positive(e: Ext)
  {
    e.PlusInf? || (e.Finite? && e.v > 0.0)
  }

  lemma {:induction false} SumPositive(s: seq<Ext>)
    requires |s| > 0
    requires forall i :: 0 <= i < |s| ==> s[i].Finite? && s[i].v > 0.0
    ensures FiniteSum(s) > 0.0
    decreases |s|
  {
    if |s| > 1 {
      SumPositive(s[1..]);
    }
  }

  /** The mean of positive values is positive. */
  lemma MeanPositive(s: seq<Ext>)
    requires |s| > 0
    requires forall i :: 0 <= i < |s| ==> Positive(s[i])
    ensures Positive(Mean(s))
  {
    var xs := Valid(s);
    assert s[0] in xs;
    assert MinusInf !in xs;
    if PlusInf !in xs {
      forall i | 0 <= i < |s| ensures s[i].Finite? {
        assert s[i] in s;
      }
      assert AllFinite(s);
      FiniteMean(s);
      SumPositive(s);
    }
  }

  /** Pairwise differences of two equally long columns. */
  function Diffs(a: seq<Ext>, b: seq<Ext>): (r: seq<Ext>)
    requires |a| == |b|
    ensures |r| == |a|
    ensures forall i :: 0 <= i < |r| ==> r[i] == Sub(a[i], b[i])
  {
    seq(|a|, i requires 0 <= i < |a| => Sub(a[i], b[i]))
  }

  lemma {:induction false} SumOfDiffs(a: seq<Ext>, b: seq<Ext>)
    requires |a| == |b| && AllFinite(a) && AllFinite(b)
    ensures FiniteSum(Diffs(a, b)) == FiniteSum(a) - FiniteSum(b)
    decreases |a|
  {
    if a != [] {
      SumOfDiffs(a[1..], b[1..]);
      assert Diffs(a, b)[1..] == Diffs(a[1..], b[1..]);
    }
  }

  /** Over finite values the mean of the differences is the difference of
      the means. */
  lemma MeanOfDiffs(a: seq<Ext>, b: seq<Ext>)
    requires |a| == |b| > 0 && AllFinite(a) && AllFinite(b)
    ensures Mean(Diffs(a, b)) == Sub(Mean(a), Mean(b))
  {
    var d := Diffs(a, b);
    DiffsFinite(a, b);
    FiniteMean(a);
    FiniteMean(b);
    FiniteMean(d);
    SumOfDiffs(a, b);
    MeansSubtract(FiniteSum(a), FiniteSum(b), FiniteSum(d), |a| as real);
  }

  lemma DiffsFinite(a: seq<Ext>, b: seq<Ext>)
    requires |a| == |b| && AllFinite(a) && AllFinite(b)
    ensures AllFinite(Diffs(a, b))
  {
    var d := Diffs(a, b);
    forall i | 0 <= i < |d| ensures d[i].Finite? {
      assert a[i].Finite? && b[i].Finite?;
    }
  }

  /** Means over a common count subtract as their sums do. */
  lemma MeansSubtract(sa: real, sb: real, sd: real, n: real)
    requires n > 0.0 && sd == sa - sb
    ensures Finite(sd / n) == Sub(Finite(sa / n), Finite(sb / n))
  {
    QuotientOfDifference(sa, sb, n);
  }

  lemma QuotientOfDifference(x: real, y: real, n: real)
    requires n > 0.0
    ensures (x - y) / n == x / n - y / n
  {
  }
}

=== FILE: filtering.dfy ===
/** `basic_filtering` (src/preprocess.py): four row filters, each applied
    only when it would keep more than 90% of the rows. Filters 1-3 measure
    that share against the row count on entry, filter 4 against the count
    at the time it runs. */
module Filtering {
  import opened Seqs
  import opened Results
  import opened Cells
  import opened Tables

  /** The four row predicates, in the order they are tried. */
  datatype Check =
    | PremiumPositive
    | ClaimsNonNegative
    | LossRatioPresent
    | BelowThreshold(threshold: Ext)

  /** Whether `row` passes `f`, with pandas' comparison semantics: a missing
      cell compares false. */
  predicate Holds(f: Check, row: Row)
  {
    match f
    case PremiumPositive => AboveZero(Get(row, "totalpremium"))
    case ClaimsNonNegative => AtLeast(AsExt(Get(row, "totalclaims")), Finite(0.0))
    case LossRatioPresent => !Get(row, "loss_ratio").Missing?
    case BelowThreshold(th) => Less(AsExt(Get(row, "loss_ratio")), th)
  }

  function Passes(f: Check): Row -> bool
  {
    row => Holds(f, row)
  }

  /** `count / base > 0.90`, exact over the rationals. With `base == 0`
      the float quotient is NaN and the comparison is false. */
  predicate Retains(count: nat, base: nat)
  {
    10 * count > 9 * base
  }

  /** `Retains` is the test `count / base > 0.90` read exactly: for a
      non-empty base it says the share kept exceeds nine tenths, and an
      empty base retains nothing. */
  lemma RetainsIsShare(count: nat, base: nat)
    requires count <= base
    ensures base > 0 ==> (Retains(count, base) <==> count as real / base as real > 0.9)
    ensures base == 0 ==> !Retains(count, base)
  {
    if base > 0 {
      ShareAbove(count as real, base as real);
      assert Retains(count, base) <==> 10.0 * count as real > 9.0 * base as real;
    }
  }

  lemma ShareAbove(c: real, b: real)
    requires b > 0.0
    ensures c / b > 0.9 <==> 10.0 * c > 9.0 * b
  {
    var q := c / b;
    assert q * b == c;
    if q > 0.9 {
      assert q * b > 0.9 * b;
    } else {
      assert q * b <= 0.9 * b;
    }
  }

  /** The frame so far and the filters that have been committed to it. */
  datatype Progress = Progress(table: Table, committed: seq<Check>)

  /** Every filter of `fs` passes `row`. */
  predicate AllHold(fs: seq<Check>, row: Row)
  {
    forall k :: 0 <= k < |fs| ==> Holds(fs[k], row)
  }

  /** The mask of the rows that pass every filter of `fs`. */
  function Survives(fs: seq<Check>): Row -> bool
  {
    row => AllHold(fs, row)
  }

  /** The frame is exactly the rows of `orig`, in order and with their
      repetitions, that pass every committed filter. */
  predicate Exact(p: Progress, orig: seq<Row>)
  {
    p.table.rows == Filter(orig, Survives(p.committed))
  }

  /** Every committed filter holds on every row of the frame. */
  predicate Consistent(p: Progress)
  {
    forall i :: 0 <= i < |p.table.rows| ==> AllHold(p.committed, p.table.rows[i])
  }

  /** Every row of `orig` that passes all committed filters is still there. */
  predicate Complete(p: Progress, orig: seq<Row>)
  {
    forall i :: 0 <= i < |orig| && AllHold(p.committed, orig[i]) ==> orig[i] in p.table.rows
  }

  /** One guarded filter: it is committed exactly when the rows passing it,
      measured against `base`, are more than 90%; a skipped filter leaves
      the frame as it was. */
  function Apply(p: Progress, f: Check, base: nat): (r: Progress)
    ensures Retains(CountIf(p.table.rows, Passes(f)), base) ==>
      r == Progress(Where(p.table, Passes(f)), p.committed + [f])
    ensures !Retains(CountIf(p.table.rows, Passes(f)), base) ==> r == p
    ensures r.table.cols == p.table.cols
    ensures IsSubseq(r.table.rows, p.table.rows)
    ensures Consistent(p) ==> Consistent(r)
  {
    if Retains(CountIf(p.table.rows, Passes(f)), base) then
      var w := Where(p.table, Passes(f));
      var r := Progress(w, p.committed + [f]);
      assert Consistent(p) ==> Consistent(r) by {
        if Consistent(p) {
          SubseqMembers(w.rows, p.table.rows);
          forall i | 0 <= i < |w.rows| ensures AllHold(r.committed, w.rows[i]) {
            assert w.rows[i] in p.table.rows;
            var j :| 0 <= j < |p.table.rows| && p.table.rows[j] == w.rows[i];
            assert AllHold(p.committed, p.table.rows[j]);
          }
        }
      }
      r
    else
      SubseqRefl(p.table.rows);
      p
  }

  /** A committed filter removes only rows that fail it, so every row that
      passes all filters committed so far survives. */
  lemma ApplyComplete(p: Progress, f: Check, base: nat, orig: seq<Row>)
    requires Complete(p, orig)
    ensures Complete(Apply(p, f, base), orig)
  {
    var r := Apply(p, f, base);
    if r != p {
      forall i | 0 <= i < |orig| && AllHold(r.committed, orig[i]) ensures orig[i] in r.table.rows {
        assert AllHold(p.committed, orig[i]) by {
          forall k | 0 <= k < |p.committed| ensures Holds(p.committed[k], orig[i]) {
            assert r.committed[k] == p.committed[k];
          }
        }
        assert Holds(r.committed[|p.committed|], orig[i]);
        var j :| 0 <= j < |p.table.rows| && p.table.rows[j] == orig[i];
      }
    }
  }

  /** Masks compose: a committed filter turns the rows passing the filters
      before it into the rows passing all of them. */
  lemma ApplyExact(p: Progress, f: Check, base: nat, orig: seq<Row>)
    requires Exact(p, orig)
    ensures Exact(Apply(p, f, base), orig)
  {
    var r := Apply(p, f, base);
    if r != p {
      var fs := p.committed;
      forall row ensures Survives(fs + [f])(row) == (Survives(fs)(row) && Passes(f)(row)) {
        if AllHold(fs, row) && Holds(f, row) {
          forall k | 0 <= k < |fs + [f]| ensures Holds((fs + [f])[k], row) {
            if k < |fs| {
              assert (fs + [f])[k] == fs[k];
            }
          }
        }
        if AllHold(fs + [f], row) {
          forall k | 0 <= k < |fs| ensures Holds(fs[k], row) {
            assert (fs + [f])[k] == fs[k];
          }
          assert Holds((fs + [f])[|fs|], row);
        }
      }
      FilterFilter(orig, Survives(fs), Passes(f), Survives(fs + [f]));
    }
  }

  /** The result of `basic_filtering`: the frame, the filters committed,
      and the exception that stopped it, if any. */
  datatype Filtered = Filtered(table: Table, committed: seq<Check>, fault: Option<Fault>)

  /** Filters 1-3. Comparing a column that holds text or time stamps with a
      number raises TypeError, and an absent column raises KeyError. Filter
      3 is tried only when loss_ratio exists. */
  function Quality(t: Table): (r: Filtered)
    ensures r.table.cols == t.cols
    ensures IsSubseq(r.table.rows, t.rows)
    ensures Consistent(Progress(r.table, r.committed))
    ensures Complete(Progress(r.table, r.committed), t.rows)
    ensures r.table.rows == Filter(t.rows, Survives(r.committed))
  {
    var n := |t.rows|;
    var p0 := Progress(t, []);
    FilterAll(t.rows, Survives([]));
    assert Complete(p0, t.rows) by {
      forall i | 0 <= i < |t.rows| ensures t.rows[i] in t.rows {
      }
    }
    SubseqRefl(t.rows);
    if "totalpremium" !in t.cols then Filtered(t, [], Some(KeyError("totalpremium")))
    else if !NumericColumn(t, "totalpremium") then Filtered(t, [], Some(TypeError("totalpremium")))
    else
      var p1 := Apply(p0, PremiumPositive, n);
      ApplyComplete(p0, PremiumPositive, n, t.rows);
      ApplyExact(p0, PremiumPositive, n, t.rows);
      if "totalclaims" !in t.cols then Filtered(p1.table, p1.committed, Some(KeyError("totalclaims")))
      else if !NumericColumn(p1.table, "totalclaims") then Filtered(p1.table, p1.committed, Some(TypeError("totalclaims")))
      else
        var p2 := Apply(p1, ClaimsNonNegative, n);
        ApplyComplete(p1, ClaimsNonNegative, n, t.rows);
        ApplyExact(p1, ClaimsNonNegative, n, t.rows);
        SubseqTrans(p2.table.rows, p1.table.rows, t.rows);
        if "loss_ratio" !in t.cols then Filtered(p2.table, p2.committed, None)
        else
          var p3 := Apply(p2, LossRatioPresent, n);
          ApplyComplete(p2, LossRatioPresent, n, t.rows);
          ApplyExact(p2, LossRatioPresent, n, t.rows);
          SubseqTrans(p3.table.rows, p2.table.rows, t.rows);
          Filtered(p3.table, p3.committed, None)
  }

  /** The frame after filter 1, which filter 2 sees. */
  function AfterPremium(t: Table): Progress
  {
    Apply(Progress(t, []), PremiumPositive, |t.rows|)
  }

  /** The frame after filter 2, which filter 3 sees. */
  function AfterClaims(t: Table): Progress
  {
    Apply(AfterPremium(t), ClaimsNonNegative, |t.rows|)
  }

  /** The exceptions filters 1-3 raise: KeyError for an absent column and
      TypeError for a column that cannot be compared with a number, the
      premium column being looked at first. */
  lemma QualityFaults(t: Table)
    ensures var r := Quality(t);
      && ("totalpremium" !in t.cols ==> r.fault == Some(KeyError("totalpremium")))
      && ("totalpremium" in t.cols && !NumericColumn(t, "totalpremium") ==> r.fault == Some(TypeError("totalpremium")))
      && ("totalpremium" in t.cols && NumericColumn(t, "totalpremium") && "totalclaims" !in t.cols ==>
            r.fault == Some(KeyError("totalclaims")))
      && (r.fault.None? <==>
            && "totalpremium" in t.cols && NumericColumn(t, "totalpremium")
            && "totalclaims" in t.cols && NumericColumn(AfterPremium(t).table, "totalclaims"))
      && (r.fault.Some? ==> r.fault.value in {KeyError("totalpremium"), TypeError("totalpremium"),
                                               KeyError("totalclaims"), TypeError("totalclaims")})
  {
  }

  /** The filters 1-3 commit, in order: each is appended exactly when the
      rows passing it are more than 90% of the rows on entry, not of the
      rows it sees. */
  lemma QualityMeasuresAgainstEntry(t: Table)
    requires Quality(t).fault.None?
    ensures var n := |t.rows|;
      var p1 := AfterPremium(t);
      var p2 := AfterClaims(t);
      && p1.committed == (if Retains(CountIf(t.rows, Passes(PremiumPositive)), n) then [PremiumPositive] else [])
      && p2.committed == p1.committed +
           (if Retains(CountIf(p1.table.rows, Passes(ClaimsNonNegative)), n) then [ClaimsNonNegative] else [])
      && Quality(t).committed == p2.committed +
           (if "loss_ratio" in t.cols && Retains(CountIf(p2.table.rows, Passes(LossRatioPresent)), n)
            then [LossRatioPresent] else [])
  {
    var n := |t.rows|;
    var p2 := AfterClaims(t);
    QualityFaults(t);
    if "loss_ratio" in t.cols {
      var p3 := Apply(p2, LossRatioPresent, n);
      assert Quality(t).committed == p3.committed;
    } else {
      assert Quality(t).committed == p2.committed;
    }
  }

  /** Filter 4. Any exception inside it (a quantile that cannot be
      computed, a comparison with text) is swallowed and the filter is
      skipped. `quantile` is the library's 0.99 quantile of a column. */
  function Outlier(q: Filtered, quantile: seq<Cell> -> Option<Ext>): (r: Filtered)
    ensures r.table.cols == q.table.cols && r.fault == q.fault
    ensures IsSubseq(r.table.rows, q.table.rows)
    ensures Consistent(Progress(q.table, q.committed)) ==> Consistent(Progress(r.table, r.committed))
    ensures q.fault.Some? || "loss_ratio" !in q.table.cols ==> r == q
    ensures quantile(Column(q.table, "loss_ratio")).None? ==> r == q
  {
    if q.fault.Some? || "loss_ratio" !in q.table.cols then
      SubseqRefl(q.table.rows);
      q
    else
      match quantile(Column(q.table, "loss_ratio"))
      case None =>
        SubseqRefl(q.table.rows);
        q
      case Some(th) =>
        if !NumericColumn(q.table, "loss_ratio") then
          SubseqRefl(q.table.rows);
          q
        else
          var p := Apply(Progress(q.table, q.committed), BelowThreshold(th), |q.table.rows|);
          Filtered(p.table, p.committed, q.fault)
  }

  /** `basic_filtering`. */
  function BasicFiltering(t: Table, quantile: seq<Cell> -> Option<Ext>): (r: Filtered)
    ensures r.table.cols == t.cols
    ensures Wf(t) ==> Wf(r.table)
    ensures |r.table.rows| <= |t.rows|
    ensures IsSubseq(r.table.rows, t.rows)
    ensures forall i :: 0 <= i < |r.table.rows| ==> AllHold(r.committed, r.table.rows[i])
    ensures forall i :: 0 <= i < |t.rows| && AllHold(r.committed, t.rows[i]) ==> t.rows[i] in r.table.rows
    ensures r.table.rows == Filter(t.rows, Survives(r.committed))
    ensures |t.rows| - |r.table.rows| == CountNot(t.rows, Survives(r.committed))
    ensures "loss_ratio" !in t.cols || quantile(Column(Quality(t).table, "loss_ratio")).None? ==> r == Quality(t)
  {
    var q := Quality(t);
    var r := Outlier(q, quantile);
    SubseqTrans(r.table.rows, q.table.rows, t.rows);
    SubseqLength(r.table.rows, t.rows);
    assert Complete(Progress(r.table, r.committed), t.rows) && Exact(Progress(r.table, r.committed), t.rows) by {
      if r != q {
        var th := quantile(Column(q.table, "loss_ratio")).value;
        ApplyComplete(Progress(q.table, q.committed), BelowThreshold(th), |q.table.rows|, t.rows);
        ApplyExact(Progress(q.table, q.committed), BelowThreshold(th), |q.table.rows|, t.rows);
      }
    }
    FilterCount(t.rows, Survives(r.committed));
    assert Wf(t) ==> Wf(r.table) by {
      if Wf(t) {
        SubseqMembers(r.table.rows, t.rows);
        forall i | 0 <= i < |r.table.rows| ensures r.table.rows[i].Keys == Labels(r.table.cols) {
          assert r.table.rows[i] in t.rows;
        }
      }
    }
    r
  }

  /** Without a loss_ratio column filters 3 and 4 are both skipped: only
      the premium and claims filters can be committed. */
  lemma NoLossRatioSkipsRelated(t: Table, quantile: seq<Cell> -> Option<Ext>)
    requires "loss_ratio" !in t.cols
    ensures BasicFiltering(t, quantile) == Quality(t)
    ensures forall k :: 0 <= k < |Quality(t).committed| ==>
      Quality(t).committed[k] == PremiumPositive || Quality(t).committed[k] == ClaimsNonNegative
  {
    var r := Quality(t);
    if r.fault.None? {
      QualityMeasuresAgainstEntry(t);
    } else {
      assert r.committed == [] || r.committed == AfterPremium(t).committed;
    }
  }

  /** Filter 4 is committed exactly when the rows below the threshold are
      more than 90% of the rows it sees, measured against the count after
      filters 1-3. */
  lemma OutlierMeasuresAgainstCurrent(t: Table, quantile: seq<Cell> -> Option<Ext>)
    requires Quality(t).fault.None? && "loss_ratio" in t.cols
    requires quantile(Column(Quality(t).table, "loss_ratio")).Some?
    requires NumericColumn(Quality(t).table, "loss_ratio")
    ensures var q := Quality(t);
      var f := BelowThreshold(quantile(Column(q.table, "loss_ratio")).value);
      BasicFiltering(t, quantile).committed ==
        q.committed + (if Retains(CountIf(q.table.rows, Passes(f)), |q.table.rows|) then [f] else [])
  {
  }
}

=== FILE: groups.dfy ===
/** How the risk tests pick the groups they compare: the values of a column
    ranked by how often they occur (`value_counts`), and the distinct values
    in sorted order (`groupby(...).groups.keys()`). Missing values form no
    group in either. */
module Groups {
  import opened Seqs
  import opened Cells

  /** The non-missing values of a column, in row order. */
  function Present(col: seq<Cell>): (vs: seq<Cell>)
    ensures forall x :: x in vs <==> x in col && !x.Missing?
    ensures IsSubseq(vs, col)
  {
    var vs := Filter(col, IsPresent);
    FilterIsSubseq(col, IsPresent);
    assert forall x :: x in col && !x.Missing? ==> x in vs by {
      forall x | x in col && !x.Missing? ensures x in vs {
        var i :| 0 <= i < |col| && col[i] == x;
        FilterKeeps(col, IsPresent, i);
      }
    }
    vs
  }

  function IsPresent(c: Cell): bool
  {
    !c.Missing?
  }

  function Other(m: Cell): Cell -> bool
  {
    x => x != m
  }

  // ---------------------------------------------------------------------
  // value_counts

  /** The candidate occurring most often in `vs`; among equally frequent
      candidates the earliest wins. */
  function Best(vs: seq<Cell>, cands: seq<Cell>): (r: Cell)
    requires |cands| > 0
    ensures r in cands
    ensures forall x :: x in cands ==> Count(vs, x) <= Count(vs, r)
    decreases |cands|
  {
    if |cands| == 1 then cands[0]
    else
      var b := Best(vs, cands[1..]);
      assert forall x :: x in cands ==> x == cands[0] || x in cands[1..];
      if Count(vs, cands[0]) >= Count(vs, b) then cands[0] else b
  }

  /** `value_counts().index[:2]` when it has two entries: the most frequent
      value and the most frequent of the others; `None` when there are fewer
      than two distinct values, where reading the second raises. */
  function TopTwo(vs: seq<Cell>): (r: Option2)
    ensures r.None2? <==> forall i, j :: 0 <= i < |vs| && 0 <= j < |vs| ==> vs[i] == vs[j]
    ensures r.Pair? ==> r.first in vs && r.second in vs && r.first != r.second
    ensures r.Pair? ==> forall x :: x in vs ==> Count(vs, x) <= Count(vs, r.first)
    ensures r.Pair? ==> forall x :: x in vs && x != r.first ==> Count(vs, x) <= Count(vs, r.second)
  {
    if vs == [] then None2
    else
      var a := Best(vs, vs);
      var rest := Filter(vs, Other(a));
      assert forall x :: x in vs && x != a ==> x in rest by {
        forall x | x in vs && x != a ensures x in rest {
          var i :| 0 <= i < |vs| && vs[i] == x;
          FilterKeeps(vs, Other(a), i);
        }
      }
      if rest == [] then
        assert forall i :: 0 <= i < |vs| ==> vs[i] == a by {
          forall i | 0 <= i < |vs| ensures vs[i] == a {
            assert vs[i] in vs;
          }
        }
        None2
      else
        var b := Best(vs, rest);
        assert b in vs && b != a;
        var i :| 0 <= i < |vs| && vs[i] == a;
        var j :| 0 <= j < |vs| && vs[j] == b;
        assert vs[i] != vs[j];
        Pair(a, b)
  }

  datatype Option2 = None2 | Pair(first: Cell, second: Cell)

  // ---------------------------------------------------------------------
  // sorted group keys

  /** Lexicographic order on code points, as Python compares strings. */
  predicate StrLess(a: string, b: string)
    decreases |a|
  {
    if a == [] then b != []
    else if b == [] then false
    else a[0] < b[0] || (a[0] == b[0] && StrLess(a[1..], b[1..]))
  }

  lemma {:induction false} StrLessIrreflexive(a: string)
    ensures !StrLess(a, a)
    decreases |a|
  {
    if a != [] {
      StrLessIrreflexive(a[1..]);
    }
  }

  lemma {:induction false} StrLessTrans(a: string, b: string, c: string)
    requires StrLess(a, b) && StrLess(b, c)
    ensures StrLess(a, c)
    decreases |a|
  {
    if a != [] && a[0] == b[0] && b[0] == c[0] {
      StrLessTrans(a[1..], b[1..], c[1..]);
    }
  }

  lemma {:induction false} StrLessTotal(a: string, b: string)
    requires a != b
    ensures StrLess(a, b) || StrLess(b, a)
    decreases |a|
  {
    if a != [] && b != [] && a[0] == b[0] {
      assert a == [a[0]] + a[1..] && b == [b[0]] + b[1..];
      StrLessTotal(a[1..], b[1..]);
    }
  }

  /** Kinds of value sort apart; within a kind, booleans, numbers, strings
      and time stamps sort in their own order. */
  function Rank(c: Cell): nat
  {
    match c
    case Missing => 0
    case Flag(_) => 1
    case Fin(_) => 2
    case Inf => 2
    case NegInf => 2
    case Text(_) => 3
    case Stamp(_) => 4
  }

  predicate Before(a: Cell, b: Cell)
  {
    Rank(a) < Rank(b)
    || (Rank(a) == Rank(b) &&
        match (a, b)
        case (Flag(x), Flag(y)) => !x && y
        case (Text(s), Text(u)) => StrLess(s, u)
        case (Stamp(x), Stamp(y)) => x < y
        case _ => Less(AsExt(a), AsExt(b)))
  }

  /** `Before` is a strict total order on cells. */
  lemma BeforeIsStrictOrder(a: Cell, b: Cell, c: Cell)
    ensures !Before(a, a)
    ensures Before(a, b) && Before(b, c) ==> Before(a, c)
    ensures a != b ==> Before(a, b) || Before(b, a)
  {
    if a.Text? {
      StrLessIrreflexive(a.s);
      if b.Text? && c.Text? && StrLess(a.s, b.s) && StrLess(b.s, c.s) {
        StrLessTrans(a.s, b.s, c.s);
      }
      if b.Text? && a != b {
        StrLessTotal(a.s, b.s);
      }
    }
    LessIsStrictOrder(AsExt(a), AsExt(b), AsExt(c));
  }

  /** The smallest cell of `vs`. */
  function MinCell(vs: seq<Cell>): (r: Cell)
    requires |vs| > 0
    ensures r in vs
    ensures forall x :: x in vs ==> x == r || Before(r, x)
    decreases |vs|
  {
    if |vs| == 1 then vs[0]
    else
      var m := MinCell(vs[1..]);
      assert forall x :: x in vs ==> x == vs[0] || x in vs[1..];
      if vs[0] == m || Before(vs[0], m) then
        assert forall x :: x in vs[1..] && x != m ==> Before(vs[0], x) by {
          forall x | x in vs[1..] && x != m ensures Before(vs[0], x) {
            BeforeIsStrictOrder(vs[0], m, x);
          }
        }
        vs[0]
      else
        BeforeIsStrictOrder(vs[0], m, m);
        m
  }

  /** The distinct values of `vs` in ascending order: what
      `groupby(col).groups.keys()` lists once missing values are gone. */
  function SortedKeys(vs: seq<Cell>): seq<Cell>
    decreases |vs|
  {
    if vs == [] then []
    else
      var m := MinCell(vs);
      var k :| 0 <= k < |vs| && vs[k] == m;
      FilterShortens(vs, Other(m), k);
      [m] + SortedKeys(Filter(vs, Other(m)))
  }

  /** The keys are exactly the values. */
  lemma {:induction false} SortedKeysMembers(vs: seq<Cell>)
    ensures forall x :: x in SortedKeys(vs) <==> x in vs
    decreases |vs|
  {
    if vs != [] {
      var m := MinCell(vs);
      var rest := Filter(vs, Other(m));
      var k :| 0 <= k < |vs| && vs[k] == m;
      FilterShortens(vs, Other(m), k);
      SortedKeysMembers(rest);
      assert forall x :: x in vs && x != m ==> x in rest by {
        forall x | x in vs && x != m ensures x in rest {
          var i :| 0 <= i < |vs| && vs[i] == x;
          FilterKeeps(vs, Other(m), i);
        }
      }
      assert SortedKeys(vs) == [m] + SortedKeys(rest);
    }
  }

  /** The keys come in ascending order. */
  lemma {:induction false} SortedKeysAscending(vs: seq<Cell>)
    ensures forall i, j :: 0 <= i < j < |SortedKeys(vs)| ==> Before(SortedKeys(vs)[i], SortedKeys(vs)[j])
    decreases |vs|
  {
    if vs != [] {
      var m := MinCell(vs);
      var rest := Filter(vs, Other(m));
      var k :| 0 <= k < |vs| && vs[k] == m;
      FilterShortens(vs, Other(m), k);
      SortedKeysAscending(rest);
      SortedKeysMembers(rest);
      var tail := SortedKeys(rest);
      assert forall x :: x in tail ==> Before(m, x) by {
        forall x | x in tail ensures Before(m, x) {
          assert x in rest;
        }
      }
      ConsAscending(m, tail);
      assert SortedKeys(vs) == [m] + tail;
    }
  }

  /** A cell before every element of an ascending sequence extends it. */
  lemma ConsAscending(m: Cell, tail: seq<Cell>)
    requires forall x :: x in tail ==> Before(m, x)
    requires forall i, j :: 0 <= i < j < |tail| ==> Before(tail[i], tail[j])
    ensures var r := [m] + tail; forall i, j :: 0 <= i < j < |r| ==> Before(r[i], r[j])
  {
    var r := [m] + tail;
    forall i, j | 0 <= i < j < |r| ensures Before(r[i], r[j]) {
      assert r[j] == tail[j - 1];
      if i > 0 {
        assert r[i] == tail[i - 1];
      }
    }
  }

  /** Sorted keys hold no value twice. */
  lemma SortedKeysDistinct(vs: seq<Cell>)
    ensures Distinct(SortedKeys(vs))
  {
    var r := SortedKeys(vs);
    SortedKeysMembers(vs);
    SortedKeysAscending(vs);
    forall i, j | 0 <= i < j < |r| ensures r[i] != r[j] {
      BeforeIsStrictOrder(r[i], r[j], r[j]);
    }
  }

  /** There are fewer than two keys exactly when all values are equal; with
      two or more, the first two are the two smallest values. */
  lemma SortedKeysFirstTwo(vs: seq<Cell>)
    ensures |SortedKeys(vs)| < 2 <==> forall i, j :: 0 <= i < |vs| && 0 <= j < |vs| ==> vs[i] == vs[j]
    ensures |SortedKeys(vs)| >= 2 ==>
      var r := SortedKeys(vs);
      forall x :: x in vs && x != r[0] && x != r[1] ==> Before(r[1], x)
  {
    var r := SortedKeys(vs);
    SortedKeysMembers(vs);
    SortedKeysAscending(vs);
    SortedKeysDistinct(vs);
    if |r| >= 2 {
      assert r[0] in vs && r[1] in vs;
      forall x | x in vs && x != r[0] && x != r[1] ensures Before(r[1], x) {
        var j :| 0 <= j < |r| && r[j] == x;
      }
    } else if |r| == 1 {
      forall i, j | 0 <= i < |vs| && 0 <= j < |vs| ensures vs[i] == vs[j] {
        assert vs[i] in r && vs[j] in r;
      }
    }
  }
}

=== FILE: hypothesis.dfy ===
/** `HypothesisTester` (src/analysis/risk_hypothesis_testing.py): group
    aggregates, the guards that record a message instead of testing, and the
    result records. The chi-squared and t tests are parameters returning a
    p-value. An exception leaves the results recorded so far in place and
    ends the run. */
module Hypothesis {
  import opened Seqs
  import opened Results
  import opened Cells
  import opened Tables
  import opened Groups
  import opened RiskScript

  /** One entry of `results`: a message, or a p-value with its verdict. */
  datatype Outcome = Note(text: string) | Tested(pValue: Ext, rejectH0: bool)

  /** The tester's state. The constructor copies the frame, which in this
      value model is the frame itself: nothing the tester does can reach the
      caller's table. */
  datatype Tester = Tester(df: Table, results: map<string, Outcome>)

  /** A test's effect: the tester afterwards, and the exception that ended
      the test, if any. */
  datatype Run = Run(tester: Tester, fault: Option<Fault>)

  /** `chi2_contingency(pd.crosstab(province, claimed))`, given the
      (province, claimed) pairs of the rows with a province. */
  type Chi2 = seq<(Cell, bool)> -> Ext

  function NewTester(df: Table): (r: Tester)
    ensures r.df == df && r.results == map[]
  {
    Tester(df, map[])
  }

  const ProvinceRisk := "province_risk"
  const ZipRisk := "zip_risk"
  const ZipMargin := "zip_margin"
  const GenderRisk := "gender_risk"

  const TestNames: set<string> := {ProvinceRisk, ZipRisk, ZipMargin, GenderRisk}

  /** The record of a p-value: reject below 0.05. */
  function Verdict(p: Ext): (o: Outcome)
    ensures o.Tested? && o.pValue == p
    ensures o.rejectH0 <==> (p.Finite? && p.v < 0.05) || p.MinusInf?
  {
    Tested(p, Less(p, Alpha))
  }

  /** Every recorded test result rejects exactly when its p-value is below
      0.05. */
  predicate Consistent(results: map<string, Outcome>)
  {
    forall k :: k in results && results[k].Tested? ==> (results[k].rejectH0 <==> Less(results[k].pValue, Alpha))
  }

  function Record(t: Tester, name: string, o: Outcome): Tester
  {
    t.(results := t.results[name := o])
  }

  /** What every test promises: the frame is untouched; on an exception
      nothing is recorded; otherwise exactly the entry `name` is written,
      and a recorded test result agrees with its p-value. */
  ghost predicate Updates(before: Tester, after: Run, name: string)
  {
    && after.tester.df == before.df
    && (after.fault.Some? ==> after.tester == before)
    && (after.fault.None? ==>
          && name in after.tester.results
          && (forall k :: k in after.tester.results <==> k in before.results || k == name)
          && (forall k :: k in before.results && k != name ==> after.tester.results[k] == before.results[k])
          && (after.tester.results[name].Tested? ==>
                (after.tester.results[name].rejectH0 <==> Less(after.tester.results[name].pValue, Alpha))))
  }

  /** A run that updates as promised keeps the results consistent. */
  lemma UpdatesKeepConsistent(before: Tester, after: Run, name: string)
    requires Updates(before, after, name)
    ensures Consistent(before.results) ==> Consistent(after.tester.results)
  {
  }

  // ---------------------------------------------------------------------
  // group aggregates

  /** `totalclaims > 0` for a row. */
  predicate Claimed(row: Row)
  {
    AboveZero(Get(row, "totalclaims"))
  }

  /** The mask `group['totalclaims'] > 0` as numbers. */
  function Indicators(rows: seq<Row>): (r: seq<Ext>)
    ensures |r| == |rows|
  {
    seq(|rows|, i requires 0 <= i < |rows| => if Claimed(rows[i]) then Finite(1.0) else Finite(0.0))
  }

  /** The mask adds up to the number of rows with a claim. */
  lemma {:induction false} IndicatorSum(rows: seq<Row>)
    ensures AllFinite(Indicators(rows))
    ensures FiniteSum(Indicators(rows)) == CountIf(rows, Claimed) as real
    decreases |rows|
  {
    if rows != [] {
      IndicatorSum(rows[1..]);
      assert Indicators(rows)[1..] == Indicators(rows[1..]);
    }
  }

  /** A comparison with zero raises KeyError for an absent column and
      TypeError for one holding text or time stamps. */
  function ColumnFault(g: Table, c: string): Option<Fault>
  {
    if c !in g.cols then Some(KeyError(c))
    else if !NumericColumn(g, c) then Some(TypeError(c))
    else None
  }

  /** `_calculate_claim_frequency`: the mean of the claim mask. */
  function ClaimFrequency(g: Table): (r: Result<Ext>)
    ensures r.Err? <==> ColumnFault(g, "totalclaims").Some?
    ensures r.Err? ==> r.fault == ColumnFault(g, "totalclaims").value
  {
    match ColumnFault(g, "totalclaims")
    case Some(f) => Err(f)
    case None => Ok(Mean(Indicators(g.rows)))
  }

  /** The claim frequency of a non-empty group is the share of its rows with
      a claim, so it lies in [0, 1]; an empty group has none. */
  lemma ClaimFrequencyIsShare(g: Table)
    requires ClaimFrequency(g).Ok?
    ensures |g.rows| == 0 ==> ClaimFrequency(g).value.NaN?
    ensures |g.rows| > 0 ==>
      var f := ClaimFrequency(g).value;
      && f.Finite? && 0.0 <= f.v <= 1.0
      && f.v == CountIf(g.rows, Claimed) as real / |g.rows| as real
  {
    var s := Indicators(g.rows);
    if |g.rows| > 0 {
      var n := |g.rows| as real;
      var c := CountIf(g.rows, Claimed) as real;
      IndicatorSum(g.rows);
      FiniteMean(s);
      assert ClaimFrequency(g).value == Finite(c / n);
      CountIfBound(g.rows, Claimed);
      QuotientBounds(c, n, 0.0, 1.0);
    }
  }

  lemma {:induction false} CountIfBound<T>(s: seq<T>, p: T -> bool)
    ensures CountIf(s, p) <= |s|
    decreases |s|
  {
    if s != [] {
      CountIfBound(s[1..], p);
    }
  }

  /** The numeric values of the claims above zero. */
  function PositiveClaims(g: Table): (r: seq<Ext>)
  {
    var kept := Filter(Column(g, "totalclaims"), AboveZero);
    seq(|kept|, i requires 0 <= i < |kept| => AsExt(kept[i]))
  }

  /** `_calculate_claim_severity`: the mean of the claims above zero. */
  function ClaimSeverity(g: Table): (r: Result<Ext>)
    ensures r.Err? <==> ColumnFault(g, "totalclaims").Some?
    ensures r.Err? ==> r.fault == ColumnFault(g, "totalclaims").value
  {
    match ColumnFault(g, "totalclaims")
    case Some(f) => Err(f)
    case None => Ok(Mean(PositiveClaims(g)))
  }

  /** Severity is defined exactly when some row has a claim, and then it is
      positive. */
  lemma ClaimSeverityPositive(g: Table)
    requires ClaimSeverity(g).Ok?
    ensures ClaimSeverity(g).value.NaN? <==> forall i :: 0 <= i < |g.rows| ==> !Claimed(g.rows[i])
    ensures !ClaimSeverity(g).value.NaN? ==> Positive(ClaimSeverity(g).value)
  {
    var col := Column(g, "totalclaims");
    var kept := Filter(col, AboveZero);
    var s := PositiveClaims(g);
    assert forall i :: 0 <= i < |s| ==> s[i] == AsExt(kept[i]);
    forall i | 0 <= i < |s| ensures Positive(s[i]) {
      assert kept[i] in kept;
    }
    if exists i :: 0 <= i < |g.rows| && Claimed(g.rows[i]) {
      var i :| 0 <= i < |g.rows| && Claimed(g.rows[i]);
      assert AboveZero(col[i]);
      FilterKeeps(col, AboveZero, i);
      MeanPositive(s);
    } else {
      FilterNone(col, AboveZero);
    }
  }

  /** `_calculate_margin`: the mean of premium minus claims. Reading an
      absent column raises KeyError, premium first; subtracting text raises
      TypeError. */
  function GroupMargin(g: Table): (r: Result<Ext>)
    ensures "totalpremium" !in g.cols ==> r == Err(KeyError("totalpremium"))
    ensures r.Ok? <==> ColumnFault(g, "totalpremium").None? && ColumnFault(g, "totalclaims").None?
  {
    if "totalpremium" !in g.cols then Err(KeyError("totalpremium"))
    else if "totalclaims" !in g.cols then Err(KeyError("totalclaims"))
    else if !NumericColumn(g, "totalpremium") then Err(TypeError("totalpremium"))
    else if !NumericColumn(g, "totalclaims") then Err(TypeError("totalclaims"))
    else Ok(Mean(Diffs(Values(g, "totalpremium"), Values(g, "totalclaims"))))
  }

  /** With finite values throughout, the mean margin is the mean premium
      less the mean claim. */
  lemma GroupMarginIsDifference(g: Table)
    requires GroupMargin(g).Ok? && |g.rows| > 0
    requires AllFinite(Values(g, "totalpremium")) && AllFinite(Values(g, "totalclaims"))
    ensures GroupMargin(g).value == Sub(Mean(Values(g, "totalpremium")), Mean(Values(g, "totalclaims")))
  {
    MeanOfDiffs(Values(g, "totalpremium"), Values(g, "totalclaims"));
  }

  // ---------------------------------------------------------------------
  // groups

  /** `groupby(col)`'s keys in order: the distinct non-missing values,
      ascending. */
  function GroupKeys(df: Table, col: string): seq<Cell>
  {
    SortedKeys(Present(Column(df, col)))
  }

  /** The group keys are the distinct non-missing values of the column,
      each once, in ascending order. */
  lemma GroupKeysAre(df: Table, col: string)
    ensures forall x :: x in GroupKeys(df, col) <==> !x.Missing? && exists i :: 0 <= i < |df.rows| && Get(df.rows[i], col) == x
    ensures Distinct(GroupKeys(df, col))
    ensures forall i, j :: 0 <= i < j < |GroupKeys(df, col)| ==> Before(GroupKeys(df, col)[i], GroupKeys(df, col)[j])
  {
    var c := Column(df, col);
    SortedKeysMembers(Present(c));
    SortedKeysAscending(Present(c));
    SortedKeysDistinct(Present(c));
    forall x ensures x in c <==> exists i :: 0 <= i < |df.rows| && Get(df.rows[i], col) == x {
      if x in c {
        var i :| 0 <= i < |c| && c[i] == x;
        assert Get(df.rows[i], col) == x;
      }
    }
  }

  /** The frame of each key's rows, in key order. */
  function Slices(df: Table, col: string, keys: seq<Cell>): (r: seq<Table>)
    ensures |r| == |keys|
    ensures forall k :: 0 <= k < |keys| ==> r[k] == ValueSlice(df, col, keys[k])
  {
    seq(|keys|, k requires 0 <= k < |keys| => ValueSlice(df, col, keys[k]))
  }

  /** One aggregate per group, in order; the first failing group's
      exception ends the list comprehension. */
  function Aggregate(groups: seq<Table>, agg: Table -> Result<Ext>): (r: Result<seq<Ext>>)
    ensures r.Ok? <==> forall k :: 0 <= k < |groups| ==> agg(groups[k]).Ok?
    ensures r.Ok? ==> |r.value| == |groups|
    ensures r.Ok? ==> forall k :: 0 <= k < |groups| ==> agg(groups[k]) == Ok(r.value[k])
    ensures r.Err? ==> exists k :: 0 <= k < |groups| && agg(groups[k]) == Err(r.fault)
    decreases |groups|
  {
    if groups == [] then Ok([])
    else
      match agg(groups[0])
      case Err(f) => Err(f)
      case Ok(v) =>
        match Aggregate(groups[1..], agg)
        case Err(f) =>
          var k :| 0 <= k < |groups[1..]| && agg(groups[1..][k]) == Err(f);
          assert agg(groups[k + 1]) == Err(f);
          Err(f)
        case Ok(rest) =>
          assert forall k :: 0 < k < |groups| ==> groups[k] == groups[1..][k - 1];
          Ok([v] + rest)
  }

  /** `[agg(df[df[col] == k]) for k in keys]`. */
  function MapGroups(df: Table, col: string, keys: seq<Cell>, agg: Table -> Result<Ext>): (r: Result<seq<Ext>>)
    ensures r.Ok? <==> forall k :: 0 <= k < |keys| ==> agg(ValueSlice(df, col, keys[k])).Ok?
    ensures r.Ok? ==> |r.value| == |keys|
    ensures r.Ok? ==> forall k :: 0 <= k < |keys| ==> agg(ValueSlice(df, col, keys[k])) == Ok(r.value[k])
  {
    Aggregate(Slices(df, col, keys), agg)
  }

  // ---------------------------------------------------------------------
  // the four tests

  /** The (province, claimed) pairs `crosstab` counts: rows with a
      province. */
  function Contingency(df: Table): (r: seq<(Cell, bool)>)
  {
    var rows := Filter(df.rows, HasProvince);
    seq(|rows|, i requires 0 <= i < |rows| => (Get(rows[i], "province"), Claimed(rows[i])))
  }

  predicate HasProvince(row: Row)
  {
    !Get(row, "province").Missing?
  }

  /** The crosstab counts one (province, claimed) pair for every row with a
      province, and only those. */
  lemma ContingencyPairs(df: Table)
    ensures |Contingency(df)| == CountIf(df.rows, HasProvince)
    ensures forall k :: 0 <= k < |Contingency(df)| ==> !Contingency(df)[k].0.Missing?
    ensures forall i :: 0 <= i < |df.rows| && HasProvince(df.rows[i]) ==>
      (Get(df.rows[i], "province"), Claimed(df.rows[i])) in Contingency(df)
  {
    var rows := Filter(df.rows, HasProvince);
    var r := Contingency(df);
    FilterCount(df.rows, HasProvince);
    forall k | 0 <= k < |r| ensures !r[k].0.Missing? {
      assert rows[k] in rows;
    }
    forall i | 0 <= i < |df.rows| && HasProvince(df.rows[i])
      ensures (Get(df.rows[i], "province"), Claimed(df.rows[i])) in r {
      FilterKeeps(df.rows, HasProvince, i);
      var j :| 0 <= j < |rows| && rows[j] == df.rows[i];
      assert r[j] == (Get(df.rows[i], "province"), Claimed(df.rows[i]));
    }
  }

  /** `test_province_risk_difference`. The frequencies are computed for
      their exceptions only; fewer than two provinces records a message;
      the contingency table compares claims on the whole frame. */
  function TestProvinceRisk(t: Tester, chi2: Chi2): (r: Run)
    ensures Updates(t, r, ProvinceRisk)
    ensures "province" !in t.df.cols ==> r.fault == Some(KeyError("province"))
  {
    var df := t.df;
    if "province" !in df.cols then Run(t, Some(KeyError("province")))
    else
      var keys := GroupKeys(df, "province");
      match MapGroups(df, "province", keys, ClaimFrequency)
      case Err(f) => Run(t, Some(f))
      case Ok(freqs) =>
        if |freqs| < 2 then Run(Record(t, ProvinceRisk, Note("Not enough unique provinces")), None)
        else if ColumnFault(df, "totalclaims").Some? then Run(t, ColumnFault(df, "totalclaims"))
        else Run(Record(t, ProvinceRisk, Verdict(chi2(Contingency(df)))), None)
  }

  /** Fewer than two provinces record the message and nothing is tested;
      otherwise the chi-squared test of the whole contingency is recorded. */
  lemma ProvinceRiskRecord(t: Tester, chi2: Chi2)
    ensures TestProvinceRisk(t, chi2).fault.None? ==>
      (TestProvinceRisk(t, chi2).tester.results[ProvinceRisk] == Note("Not enough unique provinces") <==> |GroupKeys(t.df, "province")| < 2)
    ensures TestProvinceRisk(t, chi2).fault.None? && TestProvinceRisk(t, chi2).tester.results[ProvinceRisk].Tested? ==>
      TestProvinceRisk(t, chi2).tester.results[ProvinceRisk].pValue == chi2(Contingency(t.df))
  {
  }

  /** `test_zipcode_risk_difference`: the claims of the first two postcodes
      in key order, missing values omitted. Nothing computes on the claims
      before `ttest_ind`, which raises TypeError when either sample holds
      text or time stamps. */
  function TestZipRisk(t: Tester, ttest: TTest): (r: Run)
    ensures Updates(t, r, ZipRisk)
    ensures "postalcode" !in t.df.cols ==> r.fault == Some(KeyError("postalcode"))
    ensures r.fault.Some? && "postalcode" in t.df.cols ==> r.fault.value in {KeyError("totalclaims"), TypeError("totalclaims")}
  {
    var df := t.df;
    if "postalcode" !in df.cols then Run(t, Some(KeyError("postalcode")))
    else
      var keys := GroupKeys(df, "postalcode");
      if |keys| < 2 then Run(Record(t, ZipRisk, Note("Not enough zip codes")), None)
      else
        var s1, s2 := ValueSlice(df, "postalcode", keys[0]), ValueSlice(df, "postalcode", keys[1]);
        if ColumnFault(s1, "totalclaims").Some? then Run(t, ColumnFault(s1, "totalclaims"))
        else if ColumnFault(s2, "totalclaims").Some? then Run(t, ColumnFault(s2, "totalclaims"))
        else Run(Record(t, ZipRisk, Verdict(TTestOf(s1, s2, "totalclaims", ttest).value)), None)
  }

  /** Fewer than two postcodes record the message; otherwise the claims of
      the first two postcodes in key order are tested. */
  lemma ZipRiskRecord(t: Tester, ttest: TTest)
    ensures "postalcode" in t.df.cols && |GroupKeys(t.df, "postalcode")| >= 2 ==>
      var keys := GroupKeys(t.df, "postalcode");
      var s1, s2 := ValueSlice(t.df, "postalcode", keys[0]), ValueSlice(t.df, "postalcode", keys[1]);
      && (TestZipRisk(t, ttest).fault == Some(KeyError("totalclaims")) <==> "totalclaims" !in t.df.cols)
      && (TestZipRisk(t, ttest).fault == Some(TypeError("totalclaims")) <==>
            "totalclaims" in t.df.cols && (!NumericColumn(s1, "totalclaims") || !NumericColumn(s2, "totalclaims")))
    ensures TestZipRisk(t, ttest).fault.None? ==>
      (TestZipRisk(t, ttest).tester.results[ZipRisk] == Note("Not enough zip codes") <==> |GroupKeys(t.df, "postalcode")| < 2)
    ensures TestZipRisk(t, ttest).fault.None? && TestZipRisk(t, ttest).tester.results[ZipRisk].Tested? ==>
      var keys := GroupKeys(t.df, "postalcode");
      TTestOf(ValueSlice(t.df, "postalcode", keys[0]), ValueSlice(t.df, "postalcode", keys[1]), "totalclaims", ttest)
        == Ok(TestZipRisk(t, ttest).tester.results[ZipRisk].pValue)
  {
  }

  /** The per-row margins of a group, as cells. */
  function Margins(g: Table): (r: Table)
    ensures r.cols == ["margin"] && |r.rows| == |g.rows|
    ensures Values(r, "margin") == Diffs(Values(g, "totalpremium"), Values(g, "totalclaims"))
  {
    Table(["margin"], seq(|g.rows|, i requires 0 <= i < |g.rows| =>
      map["margin" := Margin(Get(g.rows[i], "totalpremium"), Get(g.rows[i], "totalclaims"))]))
  }

  /** `test_zipcode_margin_difference`: the group margins are computed for
      their exceptions only; the test compares the row margins of the first
      two postcodes, missing values omitted. */
  function TestZipMargin(t: Tester, ttest: TTest): (r: Run)
    ensures Updates(t, r, ZipMargin)
    ensures "postalcode" !in t.df.cols ==> r.fault == Some(KeyError("postalcode"))
  {
    var df := t.df;
    if "postalcode" !in df.cols then Run(t, Some(KeyError("postalcode")))
    else
      var keys := GroupKeys(df, "postalcode");
      match MapGroups(df, "postalcode", keys, GroupMargin)
      case Err(f) => Run(t, Some(f))
      case Ok(margins) =>
        if |margins| < 2 then Run(Record(t, ZipMargin, Note("Not enough zip codes")), None)
        else Run(Record(t, ZipMargin, Verdict(MarginP(df, keys[0], keys[1], ttest))), None)
  }

  /** The t-test of the row margins of two postcodes. */
  function MarginP(df: Table, a: Cell, b: Cell, ttest: TTest): Ext
  {
    TTestOf(Margins(ValueSlice(df, "postalcode", a)), Margins(ValueSlice(df, "postalcode", b)), "margin", ttest).value
  }

  /** Fewer than two postcodes record the message; otherwise the row
      margins of the first two postcodes in key order are tested. */
  lemma ZipMarginRecord(t: Tester, ttest: TTest)
    ensures TestZipMargin(t, ttest).fault.None? ==>
      (TestZipMargin(t, ttest).tester.results[ZipMargin] == Note("Not enough zip codes") <==> |GroupKeys(t.df, "postalcode")| < 2)
    ensures TestZipMargin(t, ttest).fault.None? && TestZipMargin(t, ttest).tester.results[ZipMargin].Tested? ==>
      var keys := GroupKeys(t.df, "postalcode");
      TTestOf(Margins(ValueSlice(t.df, "postalcode", keys[0])), Margins(ValueSlice(t.df, "postalcode", keys[1])), "margin", ttest)
        == Ok(TestZipMargin(t, ttest).tester.results[ZipMargin].pValue)
  {
  }

  /** `(g["totalclaims"] > 0).astype(int)`. */
  function ClaimIndicator(g: Table): (r: seq<Cell>)
    ensures |r| == |g.rows|
    ensures forall i :: 0 <= i < |r| ==> r[i] == (if Claimed(g.rows[i]) then Fin(1.0) else Fin(0.0))
  {
    seq(|g.rows|, i requires 0 <= i < |g.rows| => if Claimed(g.rows[i]) then Fin(1.0) else Fin(0.0))
  }

  /** The indicators compared by the gender test, read as numbers, average
      to the slice's claim frequency. */
  lemma ClaimIndicatorMean(g: Table)
    requires ClaimFrequency(g).Ok?
    ensures var r := ClaimIndicator(g);
      Mean(seq(|r|, i requires 0 <= i < |r| => AsExt(r[i]))) == ClaimFrequency(g).value
  {
    var r := ClaimIndicator(g);
    assert seq(|r|, i requires 0 <= i < |r| => AsExt(r[i])) == Indicators(g.rows);
  }

  /** `test_gender_risk_difference`: an empty male or female slice records
      a message; otherwise the frequencies are computed for their exceptions
      and the claim indicators of the two slices are compared. */
  function TestGenderRisk(t: Tester, ttest: TTest): (r: Run)
    ensures Updates(t, r, GenderRisk)
    ensures "gender" !in t.df.cols ==> r.fault == Some(KeyError("gender"))
  {
    match GenderSlice(t.df, "male")
    case Err(f) => Run(t, Some(f))
    case Ok(male) =>
      var female := GenderSlice(t.df, "female").value;
      if |male.rows| == 0 || |female.rows| == 0 then
        Run(Record(t, GenderRisk, Note("Not enough male/female samples")), None)
      else if ClaimFrequency(male).Err? then Run(t, Some(ClaimFrequency(male).fault))
      else if ClaimFrequency(female).Err? then Run(t, Some(ClaimFrequency(female).fault))
      else Run(Record(t, GenderRisk, Verdict(ttest(ClaimIndicator(male), ClaimIndicator(female)))), None)
  }

  /** An empty male or female slice records the message; otherwise the
      claim indicators of the two slices are tested. */
  lemma GenderRiskRecord(t: Tester, ttest: TTest)
    ensures TestGenderRisk(t, ttest).fault.None? ==>
      (TestGenderRisk(t, ttest).tester.results[GenderRisk] == Note("Not enough male/female samples") <==>
        |GenderSlice(t.df, "male").value.rows| == 0 || |GenderSlice(t.df, "female").value.rows| == 0)
    ensures TestGenderRisk(t, ttest).fault.None? && TestGenderRisk(t, ttest).tester.results[GenderRisk].Tested? ==>
      TestGenderRisk(t, ttest).tester.results[GenderRisk].pValue ==
        ttest(ClaimIndicator(GenderSlice(t.df, "male").value), ClaimIndicator(GenderSlice(t.df, "female").value))
  {
  }

  /** A run that leaves the frame alone, keeps every result outside
      `names`, keeps the results consistent, and when it completes adds
      exactly the entries `names`. */
  ghost predicate Extends(before: Tester, after: Run, names: set<string>)
  {
    && after.tester.df == before.df
    && (after.fault.None? ==> forall k :: k in after.tester.results <==> k in before.results || k in names)
    && (forall k :: k in before.results && k !in names ==> k in after.tester.results && after.tester.results[k] == before.results[k])
    && (Consistent(before.results) ==> Consistent(after.tester.results))
  }

  lemma UpdatesExtend(before: Tester, after: Run, name: string)
    requires Updates(before, after, name)
    ensures Extends(before, after, {name})
  {
  }

  /** Two runs in sequence extend by both sets of names. */
  lemma ExtendsChain(a: Tester, r1: Run, n1: set<string>, r2: Run, n2: set<string>)
    requires Extends(a, r1, n1) && r1.fault.None? && Extends(r1.tester, r2, n2)
    ensures Extends(a, r2, n1 + n2)
  {
  }

  /** A run cut short by an exception promises nothing about the names it
      did not reach. */
  lemma ExtendsWiden(a: Tester, r: Run, n1: set<string>, n2: set<string>)
    requires Extends(a, r, n1) && r.fault.Some? && n1 <= n2
    ensures Extends(a, r, n2)
  {
  }

  /** The province and postcode-claims tests in order. */
  function RunFirstHalf(t: Tester, chi2: Chi2, ttest: TTest): (r: Run)
    ensures Extends(t, r, {ProvinceRisk, ZipRisk})
  {
    var r1 := TestProvinceRisk(t, chi2);
    UpdatesExtend(t, r1, ProvinceRisk);
    if r1.fault.Some? then
      ExtendsWiden(t, r1, {ProvinceRisk}, {ProvinceRisk, ZipRisk});
      r1
    else
      var r2 := TestZipRisk(r1.tester, ttest);
      UpdatesExtend(r1.tester, r2, ZipRisk);
      ExtendsChain(t, r1, {ProvinceRisk}, r2, {ZipRisk});
      r2
  }

  /** The postcode-margin and gender tests in order. */
  function RunSecondHalf(t: Tester, ttest: TTest): (r: Run)
    ensures Extends(t, r, {ZipMargin, GenderRisk})
  {
    var r3 := TestZipMargin(t, ttest);
    UpdatesExtend(t, r3, ZipMargin);
    if r3.fault.Some? then
      ExtendsWiden(t, r3, {ZipMargin}, {ZipMargin, GenderRisk});
      r3
    else
      var r4 := TestGenderRisk(r3.tester, ttest);
      UpdatesExtend(r3.tester, r4, GenderRisk);
      ExtendsChain(t, r3, {ZipMargin}, r4, {GenderRisk});
      r4
  }

  /** `run_all_tests`: the four tests in order; an exception ends the run
      with the results recorded before it. */
  function RunAllTests(t: Tester, chi2: Chi2, ttest: TTest): (r: Run)
    ensures Extends(t, r, TestNames)
  {
    var h := RunFirstHalf(t, chi2, ttest);
    assert {ProvinceRisk, ZipRisk} + {ZipMargin, GenderRisk} == TestNames;
    if h.fault.Some? then
      ExtendsWiden(t, h, {ProvinceRisk, ZipRisk}, TestNames);
      h
    else
      var r := RunSecondHalf(h.tester, ttest);
      ExtendsChain(t, h, {ProvinceRisk, ZipRisk}, r, {ZipMargin, GenderRisk});
      r
  }

  /** A fresh tester that completes the run holds exactly the four results,
      each test result agreeing with its p-value. */
  lemma FreshRunKeys(df: Table, chi2: Chi2, ttest: TTest)
    requires RunAllTests(NewTester(df), chi2, ttest).fault.None?
    ensures RunAllTests(NewTester(df), chi2, ttest).tester.results.Keys == TestNames
    ensures Consistent(RunAllTests(NewTester(df), chi2, ttest).tester.results)
  {
    var t := NewTester(df);
    FreshExtends(t, RunAllTests(t, chi2, ttest), TestNames);
  }

  /** A completed run from an empty record holds exactly the names it
      extends by, all consistent. */
  lemma FreshExtends(t: Tester, r: Run, names: set<string>)
    requires t.results == map[] && r.fault.None? && Extends(t, r, names)
    ensures r.tester.results.Keys == names
    ensures Consistent(r.tester.results)
  {
    assert Consistent(t.results);
    assert forall k :: k in r.tester.results <==> k in names;
  }
}

=== FILE: modeling.dfy ===
/** `ModelingDataPreprocessor` (src/modeling/data_preprocessor.py): the
    claims filter and the feature preparation that feeds the models. The
    frame is read from disk by the constructor; here it is given. */
module Modeling {
  import opened Seqs
  import opened Results
  import opened Cells
  import opened Tables

  /** `data` is the frame as loaded; `df` the working copy the filter
      replaces. */
  datatype Preprocessor = Preprocessor(data: Table, df: Table)

  function NewPreprocessor(data: Table): (p: Preprocessor)
    ensures p.data == data && p.df == data
  {
    Preprocessor(data, data)
  }

  // ---------------------------------------------------------------------
  // filter_claims

  /** `df[target] > 0` for a row. */
  function Above(target: string): Row -> bool
  {
    row => AboveZero(Get(row, target))
  }

  /** `filter_claims`: with the condition ">0" the working frame keeps the
      rows whose target is above zero, and is returned; any other condition
      returns it as it is. An absent target raises KeyError and a text or
      time-stamp target raises TypeError, leaving the frame unchanged. */
  function FilterClaims(p: Preprocessor, target: string, condition: string): (r: Result<(Preprocessor, Table)>)
    ensures condition != ">0" ==> r == Ok((p, p.df))
    ensures condition == ">0" && target !in p.df.cols ==> r == Err(KeyError(target))
    ensures condition == ">0" && target in p.df.cols && !NumericColumn(p.df, target) ==> r == Err(TypeError(target))
    ensures r.Ok? ==> r.value.1 == r.value.0.df && r.value.0.data == p.data
    ensures r.Ok? ==> r.value.1.cols == p.df.cols && IsSubseq(r.value.1.rows, p.df.rows)
    ensures r.Ok? && condition == ">0" ==>
      && (forall i :: 0 <= i < |r.value.1.rows| ==> AboveZero(Get(r.value.1.rows[i], target)))
      && (forall i :: 0 <= i < |p.df.rows| && AboveZero(Get(p.df.rows[i], target)) ==> p.df.rows[i] in r.value.1.rows)
      && |p.df.rows| - |r.value.1.rows| == CountNot(p.df.rows, Above(target))
  {
    if condition != ">0" then
      SubseqRefl(p.df.rows);
      Ok((p, p.df))
    else if target !in p.df.cols then Err(KeyError(target))
    else if !NumericColumn(p.df, target) then Err(TypeError(target))
    else
      var df := Where(p.df, Above(target));
      Ok((p.(df := df), df))
  }

  /** Filtering a second time keeps every row: the filter is idempotent. */
  lemma FilterClaimsIdempotent(p: Preprocessor, target: string, condition: string)
    requires FilterClaims(p, target, condition).Ok?
    ensures var (q, df) := FilterClaims(p, target, condition).value;
      FilterClaims(q, target, condition) == Ok((q, df))
  {
    var (q, df) := FilterClaims(p, target, condition).value;
    if condition == ">0" {
      assert NumericColumn(df, target) by {
        forall i | 0 <= i < |df.rows| ensures IsNumeric(Get(df.rows[i], target)) {
          assert AboveZero(Get(df.rows[i], target));
        }
      }
      FilterIdempotent(p.df.rows, Above(target));
    }
  }

  // ---------------------------------------------------------------------
  // prepare_features

  /** The cells of a float column: what `select_dtypes(include=["number"])`
      keeps. Booleans, text and time stamps make a column non-numeric. */
  predicate IsNumber(c: Cell)
  {
    c.Fin? || c.Inf? || c.NegInf? || c.Missing?
  }

  predicate NumberColumn(t: Table, c: string)
  {
    forall i :: 0 <= i < |t.rows| ==> IsNumber(Get(t.rows[i], c))
  }

  /** `df.drop(columns=[target]).select_dtypes(include=["number"])`. */
  function SelectFeatures(df: Table, target: string): (x: Table)
    ensures Wf(df) ==> Wf(x)
    ensures |x.rows| == |df.rows|
    ensures IsSubseq(x.cols, df.cols)
    ensures forall c :: c in x.cols <==> c in df.cols && c != target && NumberColumn(df, c)
    ensures forall i, c :: 0 <= i < |x.rows| && c in x.cols ==> Get(x.rows[i], c) == Get(df.rows[i], c)
  {
    DropColumns(df, set c | c in df.cols && (c == target || !NumberColumn(df, c)))
  }

  /** `replace([np.inf, -np.inf], np.nan)`. */
  function NoInf(c: Cell): Cell
  {
    if c.Inf? || c.NegInf? then Missing else c
  }

  const Bound: real := 10_000_000_000.0

  /** `clip(-1e10, 1e10)`; a missing cell stays missing. */
  function Clip(c: Cell): Cell
  {
    if c.Fin? && c.x > Bound then Fin(Bound)
    else if c.Fin? && c.x < -Bound then Fin(-Bound)
    else c
  }

  /** A cell after replacement and clipping: missing, or a number within
      the bounds. */
  predicate Bounded(c: Cell)
  {
    c.Missing? || (c.Fin? && -Bound <= c.x <= Bound)
  }

  /** Replacement then clipping, on every feature column. */
  function Sanitize(x: Table): (r: Table)
    ensures r.cols == x.cols && |r.rows| == |x.rows|
    ensures Wf(x) ==> Wf(r)
  {
    MapColumns(MapColumns(x, Labels(x.cols), NoInf), Labels(x.cols), Clip)
  }

  /** After replacement and clipping every feature is missing or a number
      within [-1e10, 1e10]; a number already within the bounds is kept, one
      outside is moved to the nearer bound, and only infinities become
      missing. */
  lemma SanitizeBounds(x: Table, i: int, c: string)
    requires NumberColumnsOnly(x) && 0 <= i < |x.rows| && c in x.cols
    ensures var before, after := Get(x.rows[i], c), Get(Sanitize(x).rows[i], c);
      && Bounded(after)
      && (before.Fin? && -Bound <= before.x <= Bound ==> after == before)
      && (before.Fin? && before.x > Bound ==> after == Fin(Bound))
      && (before.Fin? && before.x < -Bound ==> after == Fin(-Bound))
      && (after.Missing? <==> !before.Fin?)
  {
    assert IsNumber(Get(x.rows[i], c));
  }

  predicate NumberColumnsOnly(x: Table)
  {
    forall c :: c in x.cols ==> NumberColumn(x, c)
  }

  predicate AllMissing(x: Table, c: string)
  {
    forall i :: 0 <= i < |x.rows| ==> Get(x.rows[i], c).Missing?
  }

  /** One row with each missing cell replaced by its column's mean. */
  function FillRow(x: Table, row: Row): (r: Row)
    ensures r.Keys == row.Keys
    ensures forall c :: c in row ==> r[c] == if row[c].Missing? then FromExt(Mean(Values(x, c))) else row[c]
  {
    map c | c in row :: if row[c].Missing? then FromExt(Mean(Values(x, c))) else row[c]
  }

  /** `SimpleImputer(strategy="mean")` and the frame rebuilt with the
      original labels. No rows or no columns make the imputer raise
      ValueError; a column with no value is dropped by the imputer, so the
      rebuilt frame has too few columns for its labels, which raises
      ValueError too. */
  function Impute(x: Table): (r: Result<Table>)
    ensures r.Err? <==> |x.rows| == 0 || |x.cols| == 0 || exists c :: c in x.cols && AllMissing(x, c)
    ensures r.Err? ==> r.fault == ValueError
    ensures r.Ok? ==> r.value.cols == x.cols && |r.value.rows| == |x.rows|
    ensures r.Ok? ==> forall i :: 0 <= i < |x.rows| ==> r.value.rows[i] == FillRow(x, x.rows[i])
  {
    if |x.rows| == 0 || |x.cols| == 0 || exists c :: c in x.cols && AllMissing(x, c) then Err(ValueError)
    else Ok(Table(x.cols, seq(|x.rows|, i requires 0 <= i < |x.rows| => FillRow(x, x.rows[i]))))
  }

  /** The mean of a column whose values are all missing or within
      [lo, hi], and not all missing, is a number within [lo, hi]. */
  lemma MeanOfBounded(s: seq<Ext>, lo: real, hi: real)
    requires forall i :: 0 <= i < |s| ==> s[i].NaN? || (s[i].Finite? && lo <= s[i].v <= hi)
    requires exists i :: 0 <= i < |s| && !s[i].NaN?
    ensures Mean(s).Finite? && lo <= Mean(s).v <= hi
  {
    var xs := Valid(s);
    var i :| 0 <= i < |s| && !s[i].NaN?;
    assert s[i] in xs;
    forall k | 0 <= k < |xs| ensures xs[k].Finite? && lo <= xs[k].v <= hi {
      assert xs[k] in s;
    }
    assert PlusInf !in xs && MinusInf !in xs;
    MeanWithin(xs, lo, hi);
    ValidOfFinite(xs);
  }

  /** Imputing a table of bounded features fills every cell with a number
      within the bounds, and keeps every number it had. */
  lemma ImputeBounds(x: Table, i: int, c: string)
    requires Wf(x) && Impute(x).Ok? && 0 <= i < |x.rows| && c in x.cols
    requires forall j, d :: 0 <= j < |x.rows| && d in x.cols ==> Bounded(Get(x.rows[j], d))
    ensures var after := Get(Impute(x).value.rows[i], c);
      && after.Fin? && -Bound <= after.x <= Bound
      && (!Get(x.rows[i], c).Missing? ==> after == Get(x.rows[i], c))
  {
    assert c in x.rows[i];
    if Get(x.rows[i], c).Missing? {
      var s := Values(x, c);
      assert !AllMissing(x, c);
      var j :| 0 <= j < |x.rows| && !Get(x.rows[j], c).Missing?;
      assert !s[j].NaN?;
      forall k | 0 <= k < |s| ensures s[k].NaN? || (s[k].Finite? && -Bound <= s[k].v <= Bound) {
        assert Bounded(Get(x.rows[k], c));
      }
      MeanOfBounded(s, -Bound, Bound);
    }
  }

  /** The features and the target `prepare_features` returns. */
  datatype Features = Features(x: Table, y: seq<Cell>)

  /** `prepare_features`: an absent target raises KeyError (from `drop`);
      otherwise the numeric features other than the target are sanitized
      and imputed, and the target column is returned beside them. The
      working frame is read, never written. */
  function PrepareFeatures(p: Preprocessor, target: string): (r: Result<Features>)
    ensures target !in p.df.cols ==> r == Err(KeyError(target))
    ensures r.Err? ==> r.fault in {KeyError(target), ValueError}
    ensures target in p.df.cols && |p.df.rows| == 0 ==> r == Err(ValueError)
    ensures target in p.df.cols && (forall c :: c in p.df.cols && c != target ==> !NumberColumn(p.df, c)) ==>
      r == Err(ValueError)
    ensures r.Ok? ==> |r.value.x.rows| == |r.value.y| == |p.df.rows|
    ensures r.Ok? ==> target !in r.value.x.cols
    ensures r.Ok? ==> forall c :: c in r.value.x.cols <==> c in p.df.cols && c != target && NumberColumn(p.df, c)
    ensures r.Ok? ==> forall i :: 0 <= i < |p.df.rows| ==> r.value.y[i] == Get(p.df.rows[i], target)
  {
    if target !in p.df.cols then Err(KeyError(target))
    else
      var x := Sanitize(SelectFeatures(p.df, target));
      assert x.cols != [] ==> x.cols[0] in x.cols;
      match Impute(x)
      case Err(f) => Err(f)
      case Ok(xi) => Ok(Features(xi, Column(p.df, target)))
  }

  /** Every feature `prepare_features` returns is a number within
      [-1e10, 1e10]; a feature that was already such a number is kept. */
  lemma PreparedFeaturesBounded(p: Preprocessor, target: string, i: int, c: string)
    requires Wf(p.df) && PrepareFeatures(p, target).Ok?
    requires 0 <= i < |p.df.rows| && c in PrepareFeatures(p, target).value.x.cols
    ensures var after := Get(PrepareFeatures(p, target).value.x.rows[i], c);
      && after.Fin? && -Bound <= after.x <= Bound
      && (Get(p.df.rows[i], c).Fin? && -Bound <= Get(p.df.rows[i], c).x <= Bound ==> after == Get(p.df.rows[i], c))
  {
    var s := SelectFeatures(p.df, target);
    var x := Sanitize(s);
    assert NumberColumnsOnly(s);
    forall j, d | 0 <= j < |x.rows| && d in x.cols ensures Bounded(Get(x.rows[j], d)) {
      SanitizeBounds(s, j, d);
    }
    SanitizeBounds(s, i, c);
    ImputeBounds(x, i, c);
  }
}

=== FILE: names.dfy ===
/** String transforms the pipeline applies to column names and categorical
    cells: Python's `str.strip()`, `str.lower()` and `str.replace(' ', '_')`,
    over the ASCII range. */
module Names {

  /** The ASCII characters Python's `str.isspace` accepts: tab, line feed,
      vertical tab, form feed, carriage return, the four separators
      0x1C-0x1F and space. */
  predicate IsSpace(ch: char)
  {
    ('\t' <= ch <= '\r') || ('\U{1C}' <= ch <= '\U{1F}') || ch == ' '
  }

  predicate IsUpper(ch: char)
  {
    'A' <= ch <= 'Z'
  }

  /** `str.lstrip()`. */
  function TrimStart(s: string): string
  {
    if s == [] || !IsSpace(s[0]) then s else TrimStart(s[1..])
  }

  /** `str.rstrip()`. */
  function TrimEnd(s: string): string
  {
    if s == [] || !IsSpace(s[|s| - 1]) then s else TrimEnd(s[..|s| - 1])
  }

  /** `lstrip` removes exactly the leading whitespace: what is left is a
      suffix that does not start with a space, and all that went before it
      is space. */
  lemma {:induction false} TrimStartSpec(s: string)
    ensures |TrimStart(s)| <= |s| && TrimStart(s) == s[|s| - |TrimStart(s)|..]
    ensures forall i :: 0 <= i < |s| - |TrimStart(s)| ==> IsSpace(s[i])
    ensures TrimStart(s) == [] || !IsSpace(TrimStart(s)[0])
    decreases |s|
  {
    if s != [] && IsSpace(s[0]) {
      TrimStartSpec(s[1..]);
    }
  }

  /** `rstrip` removes exactly the trailing whitespace. */
  lemma {:induction false} TrimEndSpec(s: string)
    ensures |TrimEnd(s)| <= |s| && TrimEnd(s) == s[..|TrimEnd(s)|]
    ensures forall i :: |TrimEnd(s)| <= i < |s| ==> IsSpace(s[i])
    ensures TrimEnd(s) == [] || !IsSpace(TrimEnd(s)[|TrimEnd(s)| - 1])
    decreases |s|
  {
    if s != [] && IsSpace(s[|s| - 1]) {
      TrimEndSpec(s[..|s| - 1]);
    }
  }

  /** `str.strip()`. */
  function Strip(s: string): string
  {
    TrimEnd(TrimStart(s))
  }

  predicate Trimmed(s: string)
  {
    s == [] || (!IsSpace(s[0]) && !IsSpace(s[|s| - 1]))
  }

  function LowerChar(ch: char): char
  {
    if IsUpper(ch) then (ch as int + 32) as char else ch
  }

  /** `str.lower()` on the ASCII letters. */
  function Lower(s: string): (r: string)
    ensures |r| == |s|
  {
    seq(|s|, i requires 0 <= i < |s| => LowerChar(s[i]))
  }

  /** `str.replace(' ', '_')`. */
  function Underscore(s: string): (r: string)
    ensures |r| == |s|
  {
    seq(|s|, i requires 0 <= i < |s| => if s[i] == ' ' then '_' else s[i])
  }

  /** The canonical column name of `clean_column_names`. */
  function Normalize(name: string): string
  {
    Underscore(Lower(Strip(name)))
  }

  /** A name `Normalize` leaves alone: trimmed, free of spaces and of
      upper-case ASCII letters. */
  predicate IsNormal(s: string)
  {
    Trimmed(s) && forall i :: 0 <= i < |s| ==> s[i] != ' ' && !IsUpper(s[i])
  }

  /** Stripping yields a trimmed string, and a trimmed string strips to
      itself. */
  lemma StripTrims(s: string)
    ensures Trimmed(Strip(s))
    ensures Trimmed(s) ==> Strip(s) == s
  {
    var a := TrimStart(s);
    var b := TrimEnd(a);
    TrimStartSpec(s);
    TrimEndSpec(a);
    if b != [] {
      assert b[0] == a[0];
    }
  }

  lemma LowerKeepsSpaces(s: string)
    ensures forall i :: 0 <= i < |s| ==> (IsSpace(Lower(s)[i]) <==> IsSpace(s[i]))
    ensures forall i :: 0 <= i < |s| ==> (Lower(s)[i] == ' ' <==> s[i] == ' ')
    ensures forall i :: 0 <= i < |s| ==> !IsUpper(Lower(s)[i])
  {
  }

  /** Every normalised name is normal. */
  lemma NormalizeIsNormal(name: string)
    ensures IsNormal(Normalize(name))
  {
    var a := Strip(name);
    StripTrims(name);
    var b := Lower(a);
    LowerKeepsSpaces(a);
    var c := Underscore(b);
    assert Trimmed(b);
  }

  /** A normal name is its own normal form. */
  lemma NormalIsFixed(s: string)
    requires IsNormal(s)
    ensures Normalize(s) == s
  {
    StripTrims(s);
    assert Lower(s) == s;
    assert Underscore(s) == s;
  }

  /** Normalising an already normalised name changes nothing. */
  lemma NormalizeIdempotent(name: string)
    ensures Normalize(Normalize(name)) == Normalize(name)
  {
    NormalizeIsNormal(name);
    NormalIsFixed(Normalize(name));
  }

  /** The categorical form `str.strip().str.lower()`. */
  function Fold(s: string): string
  {
    Lower(Strip(s))
  }

  /** A trimmed string without upper-case letters is its own fold. */
  lemma FoldFixed(s: string)
    requires Trimmed(s) && forall j :: 0 <= j < |s| ==> !IsUpper(s[j])
    ensures Fold(s) == s
  {
    StripTrims(s);
    assert Lower(s) == s;
  }

  /** A folded string is trimmed and has no upper-case ASCII letter, and
      folding it again changes nothing. */
  lemma FoldIdempotent(s: string)
    ensures Trimmed(Fold(s))
    ensures forall i :: 0 <= i < |Fold(s)| ==> !IsUpper(Fold(s)[i])
    ensures Fold(Fold(s)) == Fold(s)
  {
    var a := Strip(s);
    StripTrims(s);
    LowerKeepsSpaces(a);
    var b := Lower(a);
    assert Trimmed(b);
    StripTrims(b);
    assert Lower(b) == b;
  }
}

=== FILE: pipeline.dfy ===
/** `PreProcessData.clean` (src/preprocess.py): the stages in their fixed
    order. An exception in any stage ends the run; the frame keeps whatever
    the stages before it, and the failing stage up to the exception, did. */
module Pipeline {
  import opened Seqs
  import opened Results
  import opened Cells
  import opened Names
  import opened Tables
  import opened Preprocess
  import opened Filtering

  /** The library behaviour the stages depend on: number and date parsing
      (a number read as a date is a nanosecond count since the epoch),
      the text rendering of `astype(str)`, and the 0.99 quantile (`None`
      when it raises). */
  datatype Library = Library(
    parseNumber: string -> Ext,
    parseDate: string -> Option<int>,
    numberToDate: real -> Option<int>,
    show: Cell -> string,
    quantile: seq<Cell> -> Option<Ext>)

  /** The columns `clean` requires, at most two of which may be missing in
      a row. */
  const Critical: seq<string> := ["totalclaims", "totalpremium", "gender", "transactionmonth"]
  const MaxMissing: int := 2

  /** The columns whose absence makes a stage raise KeyError. */
  const Required: set<string> :=
    {"totalclaims", "totalpremium", "gender", "transactionmonth", "bank", "customvalueestimate"}

  /** `clean_column_names`, `drop_high_missing_rows` and `fill_defaults`. */
  function Front(t: Table): (r: Stage)
    ensures |r.table.rows| <= |t.rows|
    ensures r.fault.Some? ==>
      r.fault.value == DuplicateLabels || (r.fault.value.KeyError? && r.fault.value.column in Required)
    ensures r.fault.None? ==> Wf(r.table)
    ensures r.fault.None? ==> "totalclaims" in r.table.cols && "totalpremium" in r.table.cols
    ensures r.fault.None? ==> HelperColumn !in r.table.cols
  {
    var s1 := CleanColumnNames(t);
    if s1.fault.Some? then s1
    else
      var s2 := DropHighMissingRows(s1.table, Critical, MaxMissing);
      if s2.fault.Some? then
        assert s2.fault.value.column in Critical;
        s2
      else
        assert Critical[0] in s1.table.cols && Critical[1] in s1.table.cols;
        FillDefaults(s2.table)
  }

  /** The stages from `normalize_strings` to `add_loss_ratio`. */
  function Prepare(t: Table, lib: Library): (r: Stage)
    ensures |r.table.rows| <= |t.rows|
    ensures r.fault.Some? ==> r.fault == Front(t).fault
    ensures r.fault.None? ==> Wf(r.table) && "loss_ratio" in r.table.cols && HelperColumn !in r.table.cols
    ensures r.fault.None? ==> forall c :: c in r.table.cols ==> c !in Useless
  {
    var s := Front(t);
    if s.fault.Some? then s
    else
      var t4 := NormalizeStrings(s.table, lib.show);
      var t5 := DropUselessColumns(t4);
      ColumnNamesDiffer();
      assert "totalclaims" in t5.cols && "totalpremium" in t5.cols && HelperColumn !in t5.cols;
      var t6 := ConvertTransactionMonth(t5, lib.parseDate, lib.numberToDate);
      AddLossRatio(t6, lib.parseNumber)
  }

  /** The names the pipeline adds or reads are none of the useless ones. */
  lemma ColumnNamesDiffer()
    ensures "totalclaims" !in Useless && "totalpremium" !in Useless && "loss_ratio" !in Useless
    ensures "loss_ratio" != HelperColumn
  {
  }

  /** `clean`: the stages in order, ending with `basic_filtering`. The
      exceptions that can end it are a label clash, KeyError for one of the
      required columns, and TypeError from the premium or claims filter. */
  function Clean(t: Table, lib: Library): (r: Filtered)
    ensures |r.table.rows| <= |t.rows|
    ensures r.fault.Some? ==>
      r.fault.value == DuplicateLabels
      || (r.fault.value.KeyError? && r.fault.value.column in Required)
      || r.fault.value in {TypeError("totalpremium"), TypeError("totalclaims")}
    ensures r.fault.None? ==> Wf(r.table) && "loss_ratio" in r.table.cols && HelperColumn !in r.table.cols
    ensures r.fault.None? ==> forall c :: c in r.table.cols ==> c !in Useless
    ensures r.fault.None? ==> forall i :: 0 <= i < |r.table.rows| ==> AllHold(r.committed, r.table.rows[i])
  {
    var s := Prepare(t, lib);
    if s.fault.Some? then Filtered(s.table, [], s.fault)
    else
      QualityFaults(s.table);
      BasicFiltering(s.table, lib.quantile)
  }

  /** A prepared frame has the cleaned labels, less some, plus
      loss_ratio. */
  lemma PreparedColumns(t: Table, lib: Library)
    ensures Prepare(t, lib).fault.None? ==>
      forall c :: c in Prepare(t, lib).table.cols ==> c in CleanColumnNames(t).table.cols || c == "loss_ratio"
  {
    var r := Prepare(t, lib);
    if r.fault.None? {
      var s1 := CleanColumnNames(t);
      var s2 := DropHighMissingRows(s1.table, Critical, MaxMissing);
      var s3 := FillDefaults(s2.table);
      var t5 := DropUselessColumns(NormalizeStrings(s3.table, lib.show));
      assert forall c :: c in t5.cols ==> c in s1.table.cols;
    }
  }

  lemma LossRatioNameNormal()
    ensures IsNormal("loss_ratio")
  {
    var n := "loss_ratio";
    assert forall j :: 0 <= j < |n| ==> n[j] in "loss_ratio";
  }

  /** Every column of a cleaned frame has a normal name: the renamed
      labels, and the added loss_ratio. */
  lemma CleanedColumnsAreNormal(t: Table, lib: Library)
    ensures Clean(t, lib).fault.None? ==> forall c :: c in Clean(t, lib).table.cols ==> IsNormal(c)
  {
    if Clean(t, lib).fault.None? {
      CleanedNamesAreNormal(t);
      PreparedColumns(t, lib);
      LossRatioNameNormal();
      assert Clean(t, lib).table.cols == Prepare(t, lib).table.cols;
    }
  }
}

=== FILE: preprocess.dfy ===
/** The cleaning stages of `PreProcessData` (src/preprocess.py), each a pure
    function from the frame before the stage to the frame after it. */
module Preprocess {
  import opened Seqs
  import opened Results
  import opened Cells
  import opened Names
  import opened Tables

  /** The frame after a stage, and the exception the stage raised, if any.
      A stage that raises leaves the frame as it was at the moment of the
      exception, which is what `clean` goes on holding. */
  datatype Stage = Stage(table: Table, fault: Option<Fault>)

  /** The first of `names` that `cols` lacks: the label pandas' KeyError
      reports. */
  function AbsentColumn(cols: seq<string>, names: seq<string>): (r: Option<string>)
    ensures r.None? <==> forall k :: 0 <= k < |names| ==> names[k] in cols
    ensures r.Some? ==> r.value in names && r.value !in cols
  {
    if names == [] then None
    else if names[0] !in cols then Some(names[0])
    else AbsentColumn(cols, names[1..])
  }

  // ---------------------------------------------------------------------
  // clean_column_names

  predicate NormalizeInjective(cols: seq<string>)
  {
    forall i, j :: 0 <= i < j < |cols| ==> Normalize(cols[i]) != Normalize(cols[j])
  }

  function RenameAll(cols: seq<string>): (r: seq<string>)
    ensures |r| == |cols|
    ensures forall k :: 0 <= k < |cols| ==> r[k] == Normalize(cols[k])
  {
    seq(|cols|, k requires 0 <= k < |cols| => Normalize(cols[k]))
  }

  /** `clean_column_names`. When two labels normalise to the same name the
      model stops with DuplicateLabels, since a frame here cannot hold a
      label twice. */
  function CleanColumnNames(t: Table): (r: Stage)
    ensures r.fault.None? <==> NormalizeInjective(t.cols)
    ensures r.fault.Some? ==> r.table == t && r.fault.value == DuplicateLabels
    ensures |r.table.rows| == |t.rows|
    ensures r.fault.None? ==> Wf(r.table) && |r.table.cols| == |t.cols|
    ensures r.fault.None? ==> forall k :: 0 <= k < |t.cols| ==> r.table.cols[k] == Normalize(t.cols[k])
    ensures r.fault.None? ==>
      forall i, k :: 0 <= i < |t.rows| && 0 <= k < |t.cols| ==>
        Get(r.table.rows[i], r.table.cols[k]) == Get(t.rows[i], t.cols[k])
  {
    if !NormalizeInjective(t.cols) then Stage(t, Some(DuplicateLabels))
    else Stage(RenameColumns(t, RenameAll(t.cols)), None)
  }

  /** Every label of a cleaned frame is normal. */
  lemma CleanedNamesAreNormal(t: Table)
    ensures CleanColumnNames(t).fault.None? ==> forall c :: c in CleanColumnNames(t).table.cols ==> IsNormal(c)
  {
    var r := CleanColumnNames(t);
    if r.fault.None? {
      forall c | c in r.table.cols ensures IsNormal(c) {
        var k :| 0 <= k < |r.table.cols| && r.table.cols[k] == c;
        NormalizeIsNormal(t.cols[k]);
      }
    }
  }

  /** Cleaning the names of a frame whose names are already clean changes
      nothing. */
  lemma CleanColumnNamesIdempotent(t: Table)
    ensures CleanColumnNames(t).fault.None? ==>
      CleanColumnNames(CleanColumnNames(t).table) == CleanColumnNames(t)
  {
    var s := CleanColumnNames(t);
    if s.fault.None? {
      var u := s.table;
      forall k | 0 <= k < |u.cols| ensures Normalize(u.cols[k]) == u.cols[k] {
        NormalizeIsNormal(t.cols[k]);
        NormalIsFixed(u.cols[k]);
      }
      assert RenameAll(u.cols) == u.cols;
      RenameSame(u);
    }
  }

  // ---------------------------------------------------------------------
  // drop_high_missing_rows

  /** The temporary column the stage adds and drops again. */
  const HelperColumn := "missing_count"

  /** How many of the critical columns (counted with repetition, as
      `df[critical_columns]` does) are missing in `row`. */
  function MissingCount(row: Row, critical: seq<string>): (n: nat)
    ensures n <= |critical|
  {
    if critical == [] then 0
    else (if Get(row, critical[0]).Missing? then 1 else 0) + MissingCount(row, critical[1..])
  }

  function Tolerable(critical: seq<string>, maxMissing: int): Row -> bool
  {
    row => MissingCount(row, critical) <= maxMissing
  }

  lemma {:induction false} MissingCountIgnores(row: Row, critical: seq<string>, c: string)
    requires c !in critical
    ensures MissingCount(row - {c}, critical) == MissingCount(row, critical)
    decreases |critical|
  {
    if critical != [] {
      MissingCountIgnores(row, critical[1..], c);
    }
  }

  /** `drop_high_missing_rows`: keeps the rows with at most `maxMissing`
      missing critical cells. The helper column is dropped afterwards, so a
      column of the same name that was there before is lost too. */
  function DropHighMissingRows(t: Table, critical: seq<string>, maxMissing: int): (r: Stage)
    ensures r.fault.Some? <==> exists k :: 0 <= k < |critical| && critical[k] !in t.cols
    ensures r.fault.Some? ==> r.table == t && r.fault.value.KeyError?
    ensures Wf(t) ==> Wf(r.table)
    ensures |r.table.rows| <= |t.rows|
    ensures r.fault.None? ==> forall d :: d in r.table.cols <==> d in t.cols && d != HelperColumn
    ensures r.fault.None? ==>
      |t.rows| - |r.table.rows| == CountNot(t.rows, Tolerable(critical, maxMissing))
  {
    match AbsentColumn(t.cols, critical)
    case Some(c) => Stage(t, Some(KeyError(c)))
    case None => Stage(DropColumns(Where(t, Tolerable(critical, maxMissing)), {HelperColumn}), None)
  }

  /** Every row that survives has at most `maxMissing` missing critical
      cells. */
  lemma KeptRowsTolerable(t: Table, critical: seq<string>, maxMissing: int)
    requires HelperColumn !in critical
    ensures var r := DropHighMissingRows(t, critical, maxMissing);
      forall i :: 0 <= i < |r.table.rows| && r.fault.None? ==> MissingCount(r.table.rows[i], critical) <= maxMissing
  {
    var r := DropHighMissingRows(t, critical, maxMissing);
    if r.fault.None? {
      var w := Where(t, Tolerable(critical, maxMissing));
      forall i | 0 <= i < |r.table.rows| ensures MissingCount(r.table.rows[i], critical) <= maxMissing {
        MissingCountIgnores(w.rows[i], critical, HelperColumn);
      }
    }
  }

  /** Every row within the bound survives, less the helper column. */
  lemma TolerableRowsKept(t: Table, critical: seq<string>, maxMissing: int, i: int)
    requires 0 <= i < |t.rows| && MissingCount(t.rows[i], critical) <= maxMissing
    ensures var r := DropHighMissingRows(t, critical, maxMissing);
      r.fault.None? ==> t.rows[i] - {HelperColumn} in r.table.rows
  {
    var r := DropHighMissingRows(t, critical, maxMissing);
    if r.fault.None? {
      var w := Where(t, Tolerable(critical, maxMissing));
      assert Tolerable(critical, maxMissing)(t.rows[i]);
      var j :| 0 <= j < |w.rows| && w.rows[j] == t.rows[i];
      assert r.table.rows[j] == t.rows[i] - {HelperColumn};
    }
  }

  /** On a well-formed frame without a column of the helper's name the
      surviving rows are a subsequence of the original ones. */
  lemma KeptRowsInOrder(t: Table, critical: seq<string>, maxMissing: int)
    requires Wf(t) && HelperColumn !in t.cols
    ensures var r := DropHighMissingRows(t, critical, maxMissing);
      IsSubseq(r.table.rows, t.rows)
  {
    var r := DropHighMissingRows(t, critical, maxMissing);
    if r.fault.None? {
      var w := Where(t, Tolerable(critical, maxMissing));
      forall i | 0 <= i < |w.rows| ensures r.table.rows[i] == w.rows[i] {
        assert HelperColumn !in w.rows[i];
      }
      assert r.table.rows == w.rows;
    } else {
      SubseqRefl(t.rows);
    }
  }

  /** The threshold is inclusive: a row with exactly `maxMissing` missing
      critical cells is kept, one with `maxMissing + 1` is dropped. */
  lemma MissingThreshold(cols: seq<string>, row: Row, critical: seq<string>, maxMissing: int)
    requires forall k :: 0 <= k < |critical| ==> critical[k] in cols
    ensures MissingCount(row, critical) == maxMissing ==>
      |DropHighMissingRows(Table(cols, [row]), critical, maxMissing).table.rows| == 1
    ensures MissingCount(row, critical) == maxMissing + 1 ==>
      DropHighMissingRows(Table(cols, [row]), critical, maxMissing).table.rows == []
  {
    var t := Table(cols, [row]);
    assert CountNot(t.rows, Tolerable(critical, maxMissing))
      == (if Tolerable(critical, maxMissing)(row) then 0 else 1);
  }

  // ---------------------------------------------------------------------
  // fill_defaults

  /** The defaults `fill_defaults` writes into missing cells, in order. */
  const Defaults: seq<(string, Cell)> :=
    [("bank", Text("Unknown")), ("gender", Text("Not specified")), ("customvalueestimate", Fin(0.0))]

  function FillNames(fills: seq<(string, Cell)>): (r: seq<string>)
    ensures |r| == |fills|
    ensures forall k :: 0 <= k < |fills| ==> r[k] == fills[k].0
  {
    seq(|fills|, k requires 0 <= k < |fills| => fills[k].0)
  }

  function Filler(v: Cell): Cell -> Cell
  {
    (c: Cell) => if c.Missing? then v else c
  }

  /** `df[c] = df[c].fillna(v)` for each pair in turn; the first absent
      column raises after the earlier ones are filled. */
  function FillAll(t: Table, fills: seq<(string, Cell)>): (r: Stage)
    requires Distinct(FillNames(fills))
    ensures |r.table.rows| == |t.rows|
    ensures r.table.cols == t.cols
    ensures Wf(t) ==> Wf(r.table)
    ensures r.fault == (match AbsentColumn(t.cols, FillNames(fills))
                        case None => None
                        case Some(c) => Some(KeyError(c)))
    decreases |fills|
  {
    if fills == [] then Stage(t, None)
    else if fills[0].0 !in t.cols then Stage(t, Some(KeyError(fills[0].0)))
    else
      assert FillNames(fills[1..]) == FillNames(fills)[1..];
      FillAll(MapColumn(t, fills[0].0, Filler(fills[0].1)), fills[1..])
  }

  /** Filling touches only missing cells of the listed columns, and when no
      column is absent each of them gets its column's value. */
  lemma {:induction false} FillAllCells(t: Table, fills: seq<(string, Cell)>)
    requires Distinct(FillNames(fills))
    ensures var r := FillAll(t, fills);
      && (forall i, d :: 0 <= i < |t.rows| && d !in FillNames(fills) ==>
            Get(r.table.rows[i], d) == Get(t.rows[i], d))
      && (forall i, k :: 0 <= i < |t.rows| && 0 <= k < |fills| && !Get(t.rows[i], fills[k].0).Missing? ==>
            Get(r.table.rows[i], fills[k].0) == Get(t.rows[i], fills[k].0))
      && (r.fault.None? ==>
            forall i, k :: 0 <= i < |t.rows| && 0 <= k < |fills| && Get(t.rows[i], fills[k].0).Missing? ==>
              Get(r.table.rows[i], fills[k].0) == fills[k].1)
    decreases |fills|
  {
    if fills != [] && fills[0].0 in t.cols {
      var u := MapColumn(t, fills[0].0, Filler(fills[0].1));
      var names := FillNames(fills);
      assert FillNames(fills[1..]) == names[1..];
      assert names[0] !in names[1..];
      FillAllCells(u, fills[1..]);
      assert forall d :: d !in names ==> d != names[0] && d !in names[1..];
      assert forall k :: 1 <= k < |fills| ==> fills[k].0 == fills[1..][k - 1].0 && fills[k].0 != fills[0].0;
    }
  }

  /** `fill_defaults`: fills bank, gender and customvalueestimate in that
      order, raising KeyError at the first of them that is absent. */
  function FillDefaults(t: Table): (r: Stage)
    ensures |r.table.rows| == |t.rows| && r.table.cols == t.cols
    ensures Wf(t) ==> Wf(r.table)
    ensures r.fault.None? <==> "bank" in t.cols && "gender" in t.cols && "customvalueestimate" in t.cols
    ensures r.fault.Some? ==> r.fault.value.KeyError?
  {
    assert FillNames(Defaults) == ["bank", "gender", "customvalueestimate"];
    FillAll(t, Defaults)
  }

  /** Only missing cells of bank, gender and customvalueestimate change,
      and they get that column's default. */
  lemma FillDefaultsCells(t: Table)
    ensures var r := FillDefaults(t);
      && (forall i, d :: 0 <= i < |t.rows| && d !in {"bank", "gender", "customvalueestimate"} ==>
            Get(r.table.rows[i], d) == Get(t.rows[i], d))
      && (forall i, k :: 0 <= i < |t.rows| && 0 <= k < |Defaults| && !Get(t.rows[i], Defaults[k].0).Missing? ==>
            Get(r.table.rows[i], Defaults[k].0) == Get(t.rows[i], Defaults[k].0))
      && (r.fault.None? ==> forall i :: 0 <= i < |t.rows| ==>
            && (Get(t.rows[i], "bank").Missing? ==> Get(r.table.rows[i], "bank") == Text("Unknown"))
            && (Get(t.rows[i], "gender").Missing? ==> Get(r.table.rows[i], "gender") == Text("Not specified"))
            && (Get(t.rows[i], "customvalueestimate").Missing? ==>
                  Get(r.table.rows[i], "customvalueestimate") == Fin(0.0)))
  {
    assert FillNames(Defaults) == ["bank", "gender", "customvalueestimate"];
    FillAllCells(t, Defaults);
    assert Defaults[0].0 == "bank" && Defaults[1].0 == "gender" && Defaults[2].0 == "customvalueestimate";
  }

  // ---------------------------------------------------------------------
  // normalize_strings

  const Categorical: set<string> := {"covertype", "covercategory", "gender"}

  /** `astype(str)` of one cell; numbers and time stamps are rendered by
      `show`, whose formatting is the library's. Missing cells become the
      text "nan". */
  function Render(c: Cell, show: Cell -> string): string
  {
    match c
    case Missing => "nan"
    case Text(s) => s
    case Inf => "inf"
    case NegInf => "-inf"
    case Flag(b) => if b then "True" else "False"
    case _ => show(c)
  }

  /** `.astype(str).str.strip().str.lower()` of one cell. */
  function Folder(show: Cell -> string): Cell -> Cell
  {
    c => Text(Fold(Render(c, show)))
  }

  /** `normalize_strings`: each of covertype, covercategory and gender that
      is present is rendered as text, stripped and lower-cased; other
      columns are left alone. */
  function NormalizeStrings(t: Table, show: Cell -> string): (r: Table)
    ensures |r.rows| == |t.rows| && r.cols == t.cols
    ensures Wf(t) ==> Wf(r)
  {
    MapColumns(t, Categorical, Folder(show))
  }

  /** Normalising leaves every other column's cells alone. */
  lemma NormalizeStringsKeepsOthers(t: Table, show: Cell -> string, i: int, d: string)
    requires 0 <= i < |t.rows|
    requires d !in Categorical || d !in t.cols
    ensures Get(NormalizeStrings(t, show).rows[i], d) == Get(t.rows[i], d)
  {
  }

  /** A normalised categorical cell is trimmed lower-case text: a text cell
      becomes its folded self and a missing cell the text "nan". */
  lemma NormalizedCategorical(t: Table, show: Cell -> string, i: int, c: string)
    requires 0 <= i < |t.rows| && c in Categorical && c in t.cols
    ensures var v := Get(NormalizeStrings(t, show).rows[i], c);
      && v.Text?
      && Trimmed(v.s)
      && (forall j :: 0 <= j < |v.s| ==> !IsUpper(v.s[j]))
      && (Get(t.rows[i], c).Text? ==> v.s == Fold(Get(t.rows[i], c).s))
      && (Get(t.rows[i], c).Missing? ==> v.s == "nan")
  {
    var u := Get(t.rows[i], c);
    FoldIdempotent(Render(u, show));
    if u.Missing? {
      assert "nan"[0] == 'n' && "nan"[1] == 'a' && "nan"[2] == 'n';
      FoldFixed("nan");
    }
  }

  /** Normalising the categorical columns twice is the same as once. */
  lemma NormalizeStringsIdempotent(t: Table, show: Cell -> string)
    requires Wf(t)
    ensures NormalizeStrings(NormalizeStrings(t, show), show) == NormalizeStrings(t, show)
  {
    var u := NormalizeStrings(t, show);
    forall i, c | 0 <= i < |u.rows| && c in Categorical && c in u.cols
      ensures Folder(show)(Get(u.rows[i], c)) == Get(u.rows[i], c) {
      FoldIdempotent(Render(Get(t.rows[i], c), show));
    }
    MapColumnsFixed(u, Categorical, Folder(show));
  }

  // ---------------------------------------------------------------------
  // drop_useless_columns

  const Useless: set<string> := {"numberofvehiclesinfleet", "crossborder", "rebuilt", "converted", "writtenoff"}

  /** `drop_useless_columns`: the five listed columns go when present, their
      absence is not an error, and every other column keeps its place and
      its cells. */
  function DropUselessColumns(t: Table): (r: Table)
    ensures Wf(t) ==> Wf(r)
    ensures |r.rows| == |t.rows|
    ensures IsSubseq(r.cols, t.cols)
    ensures forall d :: d in r.cols <==> d in t.cols && d !in Useless
    ensures forall i, d :: 0 <= i < |r.rows| && d !in Useless ==> Get(r.rows[i], d) == Get(t.rows[i], d)
    ensures forall i, d :: 0 <= i < |r.rows| && d in Useless ==> Get(r.rows[i], d).Missing?
  {
    DropColumns(t, Useless)
  }

  /** Dropping the useless columns a second time changes nothing. */
  lemma DropUselessColumnsIdempotent(t: Table)
    ensures DropUselessColumns(DropUselessColumns(t)) == DropUselessColumns(t)
  {
    var u := DropUselessColumns(t);
    var v := DropUselessColumns(u);
    FilterIdempotent(t.cols, c => c !in Useless);
    assert v.cols == u.cols;
    forall i | 0 <= i < |u.rows| ensures v.rows[i] == u.rows[i] {
      assert v.rows[i] == u.rows[i] - Useless;
    }
  }

  // ---------------------------------------------------------------------
  // convert_transaction_month

  /** `pd.to_datetime(errors='coerce')` of one cell. A time stamp is kept;
      a text cell is read by `parseDate`; a finite number is a count of
      nanoseconds since the epoch, whose rounding and range check are
      `numberToDate`'s. Whatever fails to convert becomes missing (NaT). */
  function ToDate(c: Cell, parseDate: string -> Option<int>, numberToDate: real -> Option<int>): (r: Cell)
    ensures r.Missing? || r.Stamp?
    ensures c.Stamp? ==> r == c
    ensures r.Stamp? && !c.Stamp? ==>
      (exists s :: c == Text(s) && parseDate(s) == Some(r.t)) || (exists x :: c == Fin(x) && numberToDate(x) == Some(r.t))
  {
    match c
    case Stamp(_) => c
    case Text(s) => (match parseDate(s) case Some(d) => Stamp(d) case None => Missing)
    case Fin(x) => (match numberToDate(x) case Some(d) => Stamp(d) case None => Missing)
    case _ => Missing
  }

  function DateParser(parseDate: string -> Option<int>, numberToDate: real -> Option<int>): Cell -> Cell
  {
    c => ToDate(c, parseDate, numberToDate)
  }

  /** `convert_transaction_month`: a no-op without the column; otherwise
      every cell of it becomes a time stamp or missing, and nothing else
      changes. */
  function ConvertTransactionMonth(t: Table, parseDate: string -> Option<int>, numberToDate: real -> Option<int>): (r: Table)
    ensures "transactionmonth" !in t.cols ==> r == t
    ensures Wf(t) ==> Wf(r)
    ensures |r.rows| == |t.rows| && r.cols == t.cols
    ensures forall i, d :: 0 <= i < |t.rows| && d != "transactionmonth" ==> Get(r.rows[i], d) == Get(t.rows[i], d)
    ensures "transactionmonth" in t.cols ==> forall i :: 0 <= i < |t.rows| ==>
      Get(r.rows[i], "transactionmonth") == ToDate(Get(t.rows[i], "transactionmonth"), parseDate, numberToDate)
  {
    if "transactionmonth" in t.cols then MapColumn(t, "transactionmonth", DateParser(parseDate, numberToDate)) else t
  }

  /** After the conversion the transaction month holds only time stamps
      and missing cells; stamps are kept, parsed text and converted numbers
      become their stamps, and everything else becomes missing. */
  lemma ConvertedMonth(t: Table, parseDate: string -> Option<int>, numberToDate: real -> Option<int>, i: int)
    requires "transactionmonth" in t.cols && 0 <= i < |t.rows|
    ensures var before := Get(t.rows[i], "transactionmonth");
      var after := Get(ConvertTransactionMonth(t, parseDate, numberToDate).rows[i], "transactionmonth");
      && (after.Missing? || after.Stamp?)
      && (before.Stamp? ==> after == before)
      && (forall s, d :: before == Text(s) && parseDate(s) == Some(d) ==> after == Stamp(d))
      && (forall x, d :: before == Fin(x) && numberToDate(x) == Some(d) ==> after == Stamp(d))
      && (forall s :: before == Text(s) && parseDate(s).None? ==> after.Missing?)
      && (forall x :: before == Fin(x) && numberToDate(x).None? ==> after.Missing?)
      && (before.Missing? || before.Inf? || before.NegInf? || before.Flag? ==> after.Missing?)
  {
  }

  /** Converting the transaction month a second time changes nothing. */
  lemma ConvertTransactionMonthIdempotent(t: Table, parseDate: string -> Option<int>, numberToDate: real -> Option<int>)
    requires Wf(t)
    ensures var u := ConvertTransactionMonth(t, parseDate, numberToDate);
      ConvertTransactionMonth(u, parseDate, numberToDate) == u
  {
    var u := ConvertTransactionMonth(t, parseDate, numberToDate);
    if "transactionmonth" in t.cols {
      forall i | 0 <= i < |u.rows|
        ensures DateParser(parseDate, numberToDate)(Get(u.rows[i], "transactionmonth")) == Get(u.rows[i], "transactionmonth") {
      }
      MapColumnFixed(u, "transactionmonth", DateParser(parseDate, numberToDate));
    }
  }

  // ---------------------------------------------------------------------
  // add_loss_ratio

  /** `pd.to_numeric(errors='coerce')` of one cell. A text cell is read by
      `parseNumber`, which gives NaN for what fails to parse and may give
      either infinity ("inf", "-Infinity"); a time stamp is its count of
      nanoseconds. */
  function ToNumber(c: Cell, parseNumber: string -> Ext): (e: Ext)
    ensures c.Missing? ==> e.NaN?
    ensures IsNumeric(c) ==> e == AsExt(c)
    ensures c.Text? ==> e == parseNumber(c.s)
    ensures c.Stamp? ==> e == Finite(c.t as real)
  {
    match c
    case Text(s) => parseNumber(s)
    case Stamp(d) => Finite(d as real)
    case _ => AsExt(c)
  }

  function LossRatioCells(t: Table, parseNumber: string -> Ext): (s: seq<Cell>)
    ensures |s| == |t.rows|
    ensures forall i :: 0 <= i < |s| ==>
      s[i] == FromExt(Div(ToNumber(Get(t.rows[i], "totalclaims"), parseNumber), ToNumber(Get(t.rows[i], "totalpremium"), parseNumber)))
  {
    seq(|t.rows|, i requires 0 <= i < |t.rows| =>
      FromExt(Div(ToNumber(Get(t.rows[i], "totalclaims"), parseNumber), ToNumber(Get(t.rows[i], "totalpremium"), parseNumber))))
  }

  /** `add_loss_ratio`: claims divided by premium with no guard on a zero
      premium. The claims column is looked up first. */
  function AddLossRatio(t: Table, parseNumber: string -> Ext): (r: Stage)
    ensures "totalclaims" !in t.cols ==> r.fault == Some(KeyError("totalclaims"))
    ensures "totalclaims" in t.cols && "totalpremium" !in t.cols ==> r.fault == Some(KeyError("totalpremium"))
    ensures r.fault.None? <==> "totalclaims" in t.cols && "totalpremium" in t.cols
    ensures r.fault.Some? ==> r.table == t
    ensures Wf(t) ==> Wf(r.table)
    ensures |r.table.rows| == |t.rows|
    ensures r.fault.None? ==> forall d :: d in r.table.cols <==> d in t.cols || d == "loss_ratio"
    ensures forall i, d :: 0 <= i < |t.rows| && d != "loss_ratio" ==> Get(r.table.rows[i], d) == Get(t.rows[i], d)
  {
    if "totalclaims" !in t.cols then Stage(t, Some(KeyError("totalclaims")))
    else if "totalpremium" !in t.cols then Stage(t, Some(KeyError("totalpremium")))
    else Stage(SetColumn(t, "loss_ratio", LossRatioCells(t, parseNumber)), None)
  }

  /** The ratio stored in row `i`: the quotient when the premium is a
      nonzero number, an infinity of the claims' sign when it is zero, and
      missing for 0/0 or when either side is not a number. */
  lemma LossRatioValue(t: Table, parseNumber: string -> Ext, i: int)
    requires 0 <= i < |t.rows|
    requires AddLossRatio(t, parseNumber).fault.None?
    ensures var a := ToNumber(Get(t.rows[i], "totalclaims"), parseNumber);
      var b := ToNumber(Get(t.rows[i], "totalpremium"), parseNumber);
      var q := Get(AddLossRatio(t, parseNumber).table.rows[i], "loss_ratio");
      && IsNumeric(q)
      && (a.Finite? && b.Finite? && b.v != 0.0 ==> q.Fin? && q.x * b.v == a.v)
      && (a.Finite? && b == Finite(0.0) && a.v > 0.0 ==> q == Inf)
      && (a.Finite? && b == Finite(0.0) && a.v < 0.0 ==> q == NegInf)
      && (a.Finite? && b == Finite(0.0) && a.v == 0.0 ==> q.Missing?)
      && (a.NaN? || b.NaN? ==> q.Missing?)
  {
  }
}

=== FILE: results.dfy ===
/** Failure values. The Python code reports failures as exceptions; the
    model returns them as values so that every error path is explicit. */
module Results {

  datatype Option<+T> = None | Some(value: T)

  /** The exceptions pandas raises on the paths the model covers. */
  datatype Fault =
    | KeyError(column: string)     // a column the code indexes is absent
    | TypeError(column: string)    // a column compared or subtracted holds text or dates
    | IndexError                   // fewer than two values where two are read
    | DuplicateLabels              // column-name normalisation merged two names
    | ValueError                   // imputation given no rows, or a column with no values

  datatype Result<+T> = Ok(value: T) | Err(fault: Fault)
}

=== FILE: risk_script.dfy ===
/** The risk-testing script (src/risk_hypothesis_testing.py): derived claim
    columns, the groups it compares, and the verdict it reports for each
    metric. The t-test itself is a parameter. None of these functions
    catches an exception, so a fault ends the run. */
module RiskScript {
  import opened Seqs
  import opened Results
  import opened Cells
  import opened Names
  import opened Tables
  import opened Groups

  // ---------------------------------------------------------------------
  // compute_claim_metrics

  /** The boolean `totalclaims > 0` stores for one cell. */
  function ClaimOccurred(claims: Cell): Cell
  {
    Flag(AboveZero(claims))
  }

  /** `totalpremium - totalclaims` for one row. */
  function Margin(premium: Cell, claims: Cell): Cell
  {
    FromExt(Sub(AsExt(premium), AsExt(claims)))
  }

  /** Adds `claim_occurred` and `margin`. A missing column raises KeyError and
      a column holding text or time stamps raises TypeError, claims before
      premium. */
  function ComputeClaimMetrics(t: Table): (r: Result<Table>)
    ensures "totalclaims" !in t.cols ==> r == Err(KeyError("totalclaims"))
    ensures "totalclaims" in t.cols && !NumericColumn(t, "totalclaims") ==> r == Err(TypeError("totalclaims"))
    ensures "totalclaims" in t.cols && NumericColumn(t, "totalclaims") && "totalpremium" !in t.cols ==>
      r == Err(KeyError("totalpremium"))
    ensures ("totalclaims" in t.cols && NumericColumn(t, "totalclaims") && "totalpremium" in t.cols
             && !NumericColumn(t, "totalpremium")) ==> r == Err(TypeError("totalpremium"))
    ensures r.Ok? <==> "totalclaims" in t.cols && NumericColumn(t, "totalclaims")
                       && "totalpremium" in t.cols && NumericColumn(t, "totalpremium")
    ensures r.Ok? ==> |r.value.rows| == |t.rows| && (Wf(t) ==> Wf(r.value))
    ensures r.Ok? ==> forall d :: d in r.value.cols <==> d in t.cols || d == "claim_occurred" || d == "margin"
    ensures r.Ok? ==> forall i, d :: 0 <= i < |t.rows| && d != "claim_occurred" && d != "margin" ==>
      Get(r.value.rows[i], d) == Get(t.rows[i], d)
  {
    if "totalclaims" !in t.cols then Err(KeyError("totalclaims"))
    else if !NumericColumn(t, "totalclaims") then Err(TypeError("totalclaims"))
    else if "totalpremium" !in t.cols then Err(KeyError("totalpremium"))
    else if !NumericColumn(t, "totalpremium") then Err(TypeError("totalpremium"))
    else
      var t1 := SetColumn(t, "claim_occurred",
        seq(|t.rows|, i requires 0 <= i < |t.rows| => ClaimOccurred(Get(t.rows[i], "totalclaims"))));
      var t2 := SetColumn(t1, "margin",
        seq(|t.rows|, i requires 0 <= i < |t.rows| =>
          Margin(Get(t.rows[i], "totalpremium"), Get(t.rows[i], "totalclaims"))));
      Ok(t2)
  }

  /** Per row: `claim_occurred` is true exactly when the claim is above zero,
      and a finite margin added back to the claim gives the premium. */
  lemma ClaimMetricsCells(t: Table, i: int)
    requires ComputeClaimMetrics(t).Ok? && 0 <= i < |t.rows|
    ensures var row := ComputeClaimMetrics(t).value.rows[i];
      var claims := Get(t.rows[i], "totalclaims");
      var premium := Get(t.rows[i], "totalpremium");
      && (Get(row, "claim_occurred") == Flag(true) <==> AboveZero(claims))
      && Get(row, "claim_occurred").Flag?
      && (AsExt(premium).Finite? && AsExt(claims).Finite? ==>
            Get(row, "margin").Fin? && Get(row, "margin").x + AsExt(claims).v == AsExt(premium).v)
      && (claims.Missing? || premium.Missing? ==> Get(row, "margin").Missing?)
  {
    var claims := Get(t.rows[i], "totalclaims");
    var premium := Get(t.rows[i], "totalpremium");
    if AsExt(premium).Finite? && AsExt(claims).Finite? {
      SubAddsBack(AsExt(premium).v, AsExt(claims).v);
    }
  }

  /** A row with a finite claim and premium gets the flag `claims > 0` and
      the margin `premium - claims`. */
  lemma ClaimMetricsFinite(t: Table, i: int)
    requires ComputeClaimMetrics(t).Ok? && 0 <= i < |t.rows|
    requires Get(t.rows[i], "totalclaims").Fin? && Get(t.rows[i], "totalpremium").Fin?
    ensures var row := ComputeClaimMetrics(t).value.rows[i];
      var c, p := Get(t.rows[i], "totalclaims").x, Get(t.rows[i], "totalpremium").x;
      Get(row, "claim_occurred") == Flag(c > 0.0) && Get(row, "margin") == Fin(p - c)
  {
  }

  /** The cells of the example frame. */
  lemma ExampleInput(t: Table)
    requires t == Table(["totalclaims", "totalpremium"],
                        [map["totalclaims" := Fin(100.0), "totalpremium" := Fin(150.0)],
                         map["totalclaims" := Fin(0.0), "totalpremium" := Fin(100.0)],
                         map["totalclaims" := Fin(50.0), "totalpremium" := Fin(50.0)]])
    ensures |t.rows| == 3 && "totalclaims" in t.cols && "totalpremium" in t.cols
    ensures NumericColumn(t, "totalclaims") && NumericColumn(t, "totalpremium")
    ensures Get(t.rows[0], "totalclaims") == Fin(100.0) && Get(t.rows[0], "totalpremium") == Fin(150.0)
    ensures Get(t.rows[1], "totalclaims") == Fin(0.0) && Get(t.rows[1], "totalpremium") == Fin(100.0)
    ensures Get(t.rows[2], "totalclaims") == Fin(50.0) && Get(t.rows[2], "totalpremium") == Fin(50.0)
  {
  }

  /** Claims 100, 0, 50 against premiums 150, 100, 50 give the flags true,
      false, true and the margins 50, 100, 0. */
  lemma ClaimMetricsExample(t: Table)
    requires t == Table(["totalclaims", "totalpremium"],
                        [map["totalclaims" := Fin(100.0), "totalpremium" := Fin(150.0)],
                         map["totalclaims" := Fin(0.0), "totalpremium" := Fin(100.0)],
                         map["totalclaims" := Fin(50.0), "totalpremium" := Fin(50.0)]])
    ensures ComputeClaimMetrics(t).Ok?
    ensures Column(ComputeClaimMetrics(t).value, "claim_occurred") == [Flag(true), Flag(false), Flag(true)]
    ensures Column(ComputeClaimMetrics(t).value, "margin") == [Fin(50.0), Fin(100.0), Fin(0.0)]
  {
    ExampleInput(t);
    ClaimMetricsFinite(t, 0);
    ClaimMetricsFinite(t, 1);
    ClaimMetricsFinite(t, 2);
    var r := ComputeClaimMetrics(t).value;
    var flags, margins := Column(r, "claim_occurred"), Column(r, "margin");
    Three(flags, Flag(true), Flag(false), Flag(true));
    Three(margins, Fin(50.0), Fin(100.0), Fin(0.0));
  }

  // ---------------------------------------------------------------------
  // t_test

  /** `ttest_ind(..., equal_var=False)` on two samples, returning the
      p-value. Its numerics belong to the library. */
  type TTest = (seq<Cell>, seq<Cell>) -> Ext

  /** `t_test`: the metric column of each group with missing values dropped,
      handed to the test; an absent metric raises KeyError. */
  function TTestOf(g1: Table, g2: Table, metric: string, ttest: TTest): (r: Result<Ext>)
    ensures r.Err? <==> metric !in g1.cols || metric !in g2.cols
    ensures r.Err? ==> r.fault == KeyError(metric)
  {
    if metric !in g1.cols || metric !in g2.cols then Err(KeyError(metric))
    else Ok(ttest(Present(Column(g1, metric)), Present(Column(g2, metric))))
  }

  /** `sample` is `col.dropna()`: a subsequence of the column with no
      missing cell that keeps every present one. */
  predicate Dropped(sample: seq<Cell>, col: seq<Cell>)
  {
    && IsSubseq(sample, col)
    && (forall k :: 0 <= k < |sample| ==> !sample[k].Missing?)
    && |sample| == CountIf(col, IsPresent)
  }

  /** The test sees exactly the two columns with their missing values
      dropped. */
  lemma TTestDropsMissing(g1: Table, g2: Table, metric: string, ttest: TTest, a: seq<Cell>, b: seq<Cell>)
    requires metric in g1.cols && metric in g2.cols
    requires Dropped(a, Column(g1, metric)) && Dropped(b, Column(g2, metric))
    ensures TTestOf(g1, g2, metric, ttest) == Ok(ttest(a, b))
  {
    PresentDropped(Column(g1, metric));
    PresentDropped(Column(g2, metric));
    DroppedUnique(a, Present(Column(g1, metric)), Column(g1, metric));
    DroppedUnique(b, Present(Column(g2, metric)), Column(g2, metric));
  }

  lemma PresentDropped(col: seq<Cell>)
    ensures Dropped(Present(col), col)
  {
    FilterCount(col, IsPresent);
    var vs := Present(col);
    forall k | 0 <= k < |vs| ensures !vs[k].Missing? {
      assert vs[k] in vs;
    }
  }

  /** A column has one `dropna`: two samples that both qualify are equal. */
  lemma {:induction false} DroppedUnique(a: seq<Cell>, b: seq<Cell>, col: seq<Cell>)
    requires Dropped(a, col) && Dropped(b, col)
    ensures a == b
    decreases |col|
  {
    if col != [] {
      if col[0].Missing? {
        SubseqSkipMissing(a, col);
        SubseqSkipMissing(b, col);
        DroppedUnique(a, b, col[1..]);
      } else {
        SubseqTakesHead(a, col);
        SubseqTakesHead(b, col);
        DroppedUnique(a[1..], b[1..], col[1..]);
        assert a == [a[0]] + a[1..] && b == [b[0]] + b[1..];
      }
    }
  }

  /** A missing-free subsequence of `col` skips a missing head. */
  lemma SubseqSkipMissing(a: seq<Cell>, col: seq<Cell>)
    requires col != [] && col[0].Missing?
    requires Dropped(a, col)
    ensures Dropped(a, col[1..])
  {
    assert a == [] || a[0] != col[0];
  }

  /** A missing-free subsequence has at most as many cells as `col` has
      present ones. */
  lemma {:induction false} SubseqCountBound(a: seq<Cell>, col: seq<Cell>)
    requires IsSubseq(a, col) && forall k :: 0 <= k < |a| ==> !a[k].Missing?
    ensures |a| <= CountIf(col, IsPresent)
    decreases |col|
  {
    if col != [] && a != [] {
      if a[0] == col[0] && IsSubseq(a[1..], col[1..]) {
        assert forall k :: 0 <= k < |a[1..]| ==> !a[1..][k].Missing? by {
          forall k | 0 <= k < |a[1..]| ensures !a[1..][k].Missing? {
            assert a[1..][k] == a[k + 1];
          }
        }
        SubseqCountBound(a[1..], col[1..]);
      } else {
        SubseqCountBound(a, col[1..]);
      }
    }
  }

  /** A full-length missing-free subsequence starts with the present head of
      `col`, and its rest is the same kind of subsequence of the rest. */
  lemma SubseqTakesHead(a: seq<Cell>, col: seq<Cell>)
    requires col != [] && !col[0].Missing?
    requires Dropped(a, col)
    ensures a != [] && a[0] == col[0] && Dropped(a[1..], col[1..])
  {
    if !(a != [] && a[0] == col[0] && IsSubseq(a[1..], col[1..])) {
      if a != [] {
        SubseqCountBound(a, col[1..]);
      }
      assert false;
    }
    assert forall k :: 0 <= k < |a[1..]| ==> !a[1..][k].Missing? by {
      forall k | 0 <= k < |a[1..]| ensures !a[1..][k].Missing? {
        assert a[1..][k] == a[k + 1];
      }
    }
  }

  // ---------------------------------------------------------------------
  // slices

  /** Rows whose gender, lower-cased, is `g`; rows whose gender is not text
      never match. */
  function GenderIs(g: string): Row -> bool
  {
    row => Get(row, "gender").Text? && Lower(Get(row, "gender").s) == g
  }

  /** `df[df['gender'].str.lower() == g]`. */
  function GenderSlice(t: Table, g: string): (r: Result<Table>)
    ensures r.Err? <==> "gender" !in t.cols
    ensures r.Err? ==> r.fault == KeyError("gender")
    ensures r.Ok? ==> r.value.cols == t.cols && IsSubseq(r.value.rows, t.rows)
    ensures r.Ok? ==> forall i :: 0 <= i < |r.value.rows| ==>
      Get(r.value.rows[i], "gender").Text? && Lower(Get(r.value.rows[i], "gender").s) == g
    ensures r.Ok? ==> forall i :: 0 <= i < |t.rows| && GenderIs(g)(t.rows[i]) ==> t.rows[i] in r.value.rows
    ensures r.Ok? ==> |t.rows| - |r.value.rows| == CountNot(t.rows, GenderIs(g))
  {
    if "gender" !in t.cols then Err(KeyError("gender")) else Ok(Where(t, GenderIs(g)))
  }

  /** No row is in both the male and the female slice. */
  lemma GenderSlicesDisjoint(t: Table)
    requires "gender" in t.cols
    ensures forall i, j :: 0 <= i < |GenderSlice(t, "male").value.rows| && 0 <= j < |GenderSlice(t, "female").value.rows| ==>
      GenderSlice(t, "male").value.rows[i] != GenderSlice(t, "female").value.rows[j]
  {
    var m, f := GenderSlice(t, "male").value, GenderSlice(t, "female").value;
    forall i, j | 0 <= i < |m.rows| && 0 <= j < |f.rows| ensures m.rows[i] != f.rows[j] {
      assert Lower(Get(m.rows[i], "gender").s) == "male";
      assert Lower(Get(f.rows[j], "gender").s) == "female";
      assert "male" != "female" by {
        assert "male"[0] != "female"[0];
      }
    }
  }

  /** Rows whose `col` cell equals `v`. */
  function HasValue(col: string, v: Cell): Row -> bool
  {
    row => Get(row, col) == v
  }

  /** `df[df[col] == v]`. */
  function ValueSlice(t: Table, col: string, v: Cell): (r: Table)
    ensures r.cols == t.cols && IsSubseq(r.rows, t.rows)
    ensures forall i :: 0 <= i < |r.rows| ==> Get(r.rows[i], col) == v
    ensures forall i :: 0 <= i < |t.rows| && Get(t.rows[i], col) == v ==> t.rows[i] in r.rows
    ensures |t.rows| - |r.rows| == CountNot(t.rows, HasValue(col, v))
  {
    Where(t, HasValue(col, v))
  }

  /** The groups compared, and one line per metric. */
  datatype Report = Report(first: Cell, second: Cell, lines: seq<Line>)

  /** One printed line: the metric, its p-value and the verdict. */
  datatype Line = Line(metric: string, p: Ext, verdict: Verdict)

  datatype Verdict = Reject | FailToReject

  const Alpha: Ext := Finite(0.05)

  /** The verdict printed for a p-value: reject below 0.05; a NaN p-value
      never rejects. */
  function VerdictOf(p: Ext): (v: Verdict)
    ensures v == Reject <==> (p.Finite? && p.v < 0.05) || p.MinusInf?
  {
    if Less(p, Alpha) then Reject else FailToReject
  }

  /** The two groups compared on `col`: `value_counts().index[:2]`. An absent
      column raises KeyError; fewer than two distinct values raise
      IndexError. */
  function TopTwoValues(t: Table, col: string): (r: Result<(Cell, Cell)>)
    ensures col !in t.cols ==> r == Err(KeyError(col))
    ensures col in t.cols ==> (r.Err? <==> forall i, j :: 0 <= i < |Present(Column(t, col))| && 0 <= j < |Present(Column(t, col))| ==>
      Present(Column(t, col))[i] == Present(Column(t, col))[j])
    ensures r.Err? ==> r.fault in {KeyError(col), IndexError}
    ensures r.Ok? ==> var (a, b) := r.value; var vs := Present(Column(t, col));
      && a != b && a in vs && b in vs && !a.Missing? && !b.Missing?
      && Count(vs, a) >= Count(vs, b)
      && (forall x :: x in vs ==> Count(vs, x) <= Count(vs, a))
      && (forall x :: x in vs && x != a ==> Count(vs, x) <= Count(vs, b))
  {
    if col !in t.cols then Err(KeyError(col))
    else
      match TopTwo(Present(Column(t, col)))
      case None2 => Err(IndexError)
      case Pair(a, b) => Ok((a, b))
  }

  /** The metrics each comparison reports on. */
  const Metrics: seq<string> := ["claim_occurred", "totalclaims", "margin"]

  /** The first metric missing from either group, whose KeyError ends the
      loop. */
  function AbsentMetric(g1: Table, g2: Table, metrics: seq<string>): (r: Option<string>)
    ensures r.None? <==> forall m :: m in metrics ==> m in g1.cols && m in g2.cols
    ensures r.Some? ==> r.value in metrics && (r.value !in g1.cols || r.value !in g2.cols)
    decreases |metrics|
  {
    if metrics == [] then None
    else if metrics[0] !in g1.cols || metrics[0] !in g2.cols then Some(metrics[0])
    else
      assert forall m :: m in metrics ==> m == metrics[0] || m in metrics[1..];
      AbsentMetric(g1, g2, metrics[1..])
  }

  /** One printed line: the metric, its p-value and the verdict. */
  function TestLine(g1: Table, g2: Table, m: string, ttest: TTest): (l: Line)
    requires m in g1.cols && m in g2.cols
    ensures l.metric == m && TTestOf(g1, g2, m, ttest) == Ok(l.p)
    ensures l.verdict == Reject <==> Less(l.p, Alpha)
  {
    var p := TTestOf(g1, g2, m, ttest).value;
    Line(m, p, VerdictOf(p))
  }

  /** One t-test line per metric, in order; the first absent metric raises
      KeyError. */
  function TestMetrics(g1: Table, g2: Table, metrics: seq<string>, ttest: TTest): (r: Result<seq<Line>>)
    ensures r.Ok? <==> forall m :: m in metrics ==> m in g1.cols && m in g2.cols
    ensures r.Err? ==> r.fault.KeyError? && r.fault.column in metrics
    ensures r.Ok? ==> |r.value| == |metrics|
    ensures r.Ok? ==> forall k :: 0 <= k < |metrics| ==>
      r.value[k].metric == metrics[k] && TTestOf(g1, g2, metrics[k], ttest) == Ok(r.value[k].p)
      && (r.value[k].verdict == Reject <==> Less(r.value[k].p, Alpha))
    ensures r.Ok? ==> VerdictsAgree(Report(Missing, Missing, r.value))
  {
    match AbsentMetric(g1, g2, metrics)
    case Some(m) => Err(KeyError(m))
    case None =>
      var lines := seq(|metrics|, k requires 0 <= k < |metrics| => TestLine(g1, g2, metrics[k], ttest));
      assert forall k :: 0 <= k < |metrics| ==> lines[k] == TestLine(g1, g2, metrics[k], ttest);
      Ok(lines)
  }

  /** Every line of the report says Reject exactly when its p-value is
      below 0.05. */
  predicate VerdictsAgree(rep: Report)
  {
    forall j :: 0 <= j < |rep.lines| ==> (rep.lines[j].verdict == Reject <==> Less(rep.lines[j].p, Alpha))
  }

  /** `test_gender_difference`. */
  function TestGenderDifference(t: Table, ttest: TTest): (r: Result<Report>)
    ensures "gender" !in t.cols ==> r == Err(KeyError("gender"))
    ensures r.Ok? ==> r.value.first == Text("male") && r.value.second == Text("female")
    ensures r.Ok? ==> |r.value.lines| == |Metrics| && VerdictsAgree(r.value)
  {
    match GenderSlice(t, "male")
    case Err(f) => Err(f)
    case Ok(male) =>
      var female := GenderSlice(t, "female").value;
      match TestMetrics(male, female, Metrics, ttest)
      case Err(f) => Err(f)
      case Ok(lines) => Ok(Report(Text("male"), Text("female"), lines))
  }

  /** Each line of the gender report tests its metric on the male slice
      against the female slice. */
  lemma GenderReportLines(t: Table, ttest: TTest)
    requires TestGenderDifference(t, ttest).Ok?
    ensures var r := TestGenderDifference(t, ttest).value;
      forall k :: 0 <= k < |Metrics| ==>
        r.lines[k].metric == Metrics[k]
        && TTestOf(GenderSlice(t, "male").value, GenderSlice(t, "female").value, Metrics[k], ttest) == Ok(r.lines[k].p)
  {
  }

  /** `test_province_difference` and `test_zipcode_difference`, comparing
      the two most frequent values of `col`. */
  function TestTopTwoDifference(t: Table, col: string, ttest: TTest): (r: Result<Report>)
    ensures r.Ok? ==> |r.value.lines| == |Metrics| && VerdictsAgree(r.value)
    ensures r.Ok? ==> r.value.first != r.value.second
  {
    match TopTwoValues(t, col)
    case Err(f) => Err(f)
    case Ok((a, b)) =>
      match TestMetrics(ValueSlice(t, col, a), ValueSlice(t, col, b), Metrics, ttest)
      case Err(f) => Err(f)
      case Ok(lines) => Ok(Report(a, b, lines))
  }

  /** A top-two report names the two most frequent values, and each line
      tests its metric on the slice of the first against the slice of the
      second; a failure to find them is the report's failure. */
  lemma TopTwoReport(t: Table, col: string, ttest: TTest)
    ensures TopTwoValues(t, col).Err? ==> TestTopTwoDifference(t, col, ttest) == Err(TopTwoValues(t, col).fault)
    ensures TestTopTwoDifference(t, col, ttest).Ok? ==>
      var r := TestTopTwoDifference(t, col, ttest).value;
      && TopTwoValues(t, col) == Ok((r.first, r.second))
      && forall k :: 0 <= k < |Metrics| ==>
        r.lines[k].metric == Metrics[k]
        && TTestOf(ValueSlice(t, col, r.first), ValueSlice(t, col, r.second), Metrics[k], ttest) == Ok(r.lines[k].p)
  {
  }

  /** The three comparisons on a frame that already has its metrics. */
  function RunComparisons(df: Table, ttest: TTest): (r: Result<seq<Report>>)
    ensures r.Ok? ==> |r.value| == 3
    ensures r.Ok? ==> VerdictsAgree(r.value[0]) && VerdictsAgree(r.value[1]) && VerdictsAgree(r.value[2])
  {
    match TestGenderDifference(df, ttest)
    case Err(f) => Err(f)
    case Ok(gender) =>
      match TestTopTwoDifference(df, "province", ttest)
      case Err(f) => Err(f)
      case Ok(province) =>
        match TestTopTwoDifference(df, "postalcode", ttest)
        case Err(f) => Err(f)
        case Ok(zip) => Ok([gender, province, zip])
  }

  /** `run_all_tests` after loading: the metrics, then the gender, province
      and postcode comparisons. The first fault ends the run; every verdict
      agrees with its p-value. */
  function RunAllTests(t: Table, ttest: TTest): (r: Result<seq<Report>>)
    ensures r.Ok? ==> ComputeClaimMetrics(t).Ok? && |r.value| == 3
    ensures r.Ok? ==> VerdictsAgree(r.value[0]) && VerdictsAgree(r.value[1]) && VerdictsAgree(r.value[2])
    ensures ComputeClaimMetrics(t).Err? ==> r == Err(ComputeClaimMetrics(t).fault)
  {
    match ComputeClaimMetrics(t)
    case Err(f) => Err(f)
    case Ok(df) => RunComparisons(df, ttest)
  }

  /** The reports compare male with female, the two most frequent
      provinces, and the two most frequent postcodes. */
  lemma RunComparisonsGroups(df: Table, ttest: TTest)
    requires RunComparisons(df, ttest).Ok?
    ensures var r := RunComparisons(df, ttest).value;
      && r[0].first == Text("male") && r[0].second == Text("female")
      && TopTwoValues(df, "province") == Ok((r[1].first, r[1].second))
      && TopTwoValues(df, "postalcode") == Ok((r[2].first, r[2].second))
  {
    var r := RunComparisons(df, ttest).value;
    assert r == [TestGenderDifference(df, ttest).value, TestTopTwoDifference(df, "province", ttest).value,
                 TestTopTwoDifference(df, "postalcode", ttest).value];
    TopTwoReport(df, "province", ttest);
    TopTwoReport(df, "postalcode", ttest);
  }

  /** The metrics every comparison reads exist once they are computed. */
  lemma MetricsPresent(t: Table)
    requires ComputeClaimMetrics(t).Ok?
    ensures forall m :: m in Metrics ==> m in ComputeClaimMetrics(t).value.cols
  {
  }

  /** With the metrics present, a top-two comparison fails only on its
      grouping column or for want of a second value. */
  lemma TopTwoTestRuns(df: Table, col: string, ttest: TTest)
    requires forall m :: m in Metrics ==> m in df.cols
    ensures TestTopTwoDifference(df, col, ttest).Ok? <==> TopTwoValues(df, col).Ok?
  {
  }

  /** With the metrics present, the gender comparison fails only when there
      is no gender column. */
  lemma GenderTestRuns(df: Table, ttest: TTest)
    requires forall m :: m in Metrics ==> m in df.cols
    ensures TestGenderDifference(df, ttest).Ok? <==> "gender" in df.cols
  {
  }
}

=== FILE: seqs.dfy ===
/** Order-preserving selection on sequences: the shape of every pandas boolean
    mask `df[cond]` in the pipeline. */
module Seqs {

  /** The elements of `s` that satisfy `p`, in their original order. */
  function Filter<T>(s: seq<T>, p: T -> bool): (r: seq<T>)
    ensures |r| <= |s|
    ensures forall x :: x in r ==> x in s && p(x)
  {
    if s == [] then []
    else (if p(s[0]) then [s[0]] else []) + Filter(s[1..], p)
  }

  /** Number of elements of `s` that satisfy `p`. */
  function CountIf<T>(s: seq<T>, p: T -> bool): nat
  {
    if s == [] then 0
    else (if p(s[0]) then 1 else 0) + CountIf(s[1..], p)
  }

  /** Number of elements of `s` that fail `p`. */
  function CountNot<T>(s: seq<T>, p: T -> bool): nat
  {
    if s == [] then 0
    else (if p(s[0]) then 0 else 1) + CountNot(s[1..], p)
  }

  /** Number of occurrences of `x` in `s`. */
  function Count<T(==)>(s: seq<T>, x: T): nat
  {
    if s == [] then 0
    else (if s[0] == x then 1 else 0) + Count(s[1..], x)
  }

  /** `a` can be obtained from `b` by deleting elements. */
  predicate IsSubseq<T(==)>(a: seq<T>, b: seq<T>)
    decreases |b|
  {
    if a == [] then true
    else if b == [] then false
    else (a[0] == b[0] && IsSubseq(a[1..], b[1..])) || IsSubseq(a, b[1..])
  }

  /** The elements of `a` are pairwise different. */
  predicate Distinct<T(==)>(a: seq<T>)
  {
    forall i, j :: 0 <= i < j < |a| ==> a[i] != a[j]
  }

  lemma {:induction false} FilterIsSubseq<T>(s: seq<T>, p: T -> bool)
    ensures IsSubseq(Filter(s, p), s)
    decreases |s|
  {
    if s != [] {
      FilterIsSubseq(s[1..], p);
      var r := Filter(s, p);
      if p(s[0]) {
        assert r[0] == s[0] && r[1..] == Filter(s[1..], p);
      } else {
        assert r == Filter(s[1..], p);
      }
    }
  }

  /** The kept and the rejected elements add up to the whole sequence: the
      number of elements a mask removes is the count of those it rejects. */
  lemma {:induction false} FilterCount<T>(s: seq<T>, p: T -> bool)
    ensures |Filter(s, p)| == CountIf(s, p)
    ensures |s| - |Filter(s, p)| == CountNot(s, p)
    decreases |s|
  {
    if s != [] {
      FilterCount(s[1..], p);
    }
  }

  /** Every element that satisfies `p` survives the filter. */
  lemma {:induction false} FilterKeeps<T>(s: seq<T>, p: T -> bool, i: int)
    requires 0 <= i < |s| && p(s[i])
    ensures s[i] in Filter(s, p)
    decreases |s|
  {
    if i > 0 {
      FilterKeeps(s[1..], p, i - 1);
    }
  }

  /** A mask that every element passes changes nothing. */
  lemma {:induction false} FilterAll<T>(s: seq<T>, p: T -> bool)
    requires forall i :: 0 <= i < |s| ==> p(s[i])
    ensures Filter(s, p) == s
    decreases |s|
  {
    if s != [] {
      FilterAll(s[1..], p);
    }
  }

  /** A mask that rejects every element leaves nothing. */
  lemma {:induction false} FilterNone<T>(s: seq<T>, p: T -> bool)
    requires forall i :: 0 <= i < |s| ==> !p(s[i])
    ensures Filter(s, p) == []
    decreases |s|
  {
    if s != [] {
      FilterNone(s[1..], p);
    }
  }

  /** A mask that rejects some element strictly shortens the sequence. */
  lemma {:induction false} FilterShortens<T>(s: seq<T>, p: T -> bool, i: int)
    requires 0 <= i < |s| && !p(s[i])
    ensures |Filter(s, p)| < |s|
    decreases |s|
  {
    if i > 0 {
      FilterShortens(s[1..], p, i - 1);
    }
  }

  lemma {:induction false} SubseqLength<T>(a: seq<T>, b: seq<T>)
    requires IsSubseq(a, b)
    ensures |a| <= |b|
    decreases |b|
  {
    if a != [] {
      if a[0] == b[0] && IsSubseq(a[1..], b[1..]) {
        SubseqLength(a[1..], b[1..]);
      } else {
        SubseqLength(a, b[1..]);
      }
    }
  }

  lemma {:induction false} SubseqMembers<T>(a: seq<T>, b: seq<T>)
    requires IsSubseq(a, b)
    ensures forall x :: x in a ==> x in b
    decreases |b|
  {
    if a != [] {
      if a[0] == b[0] && IsSubseq(a[1..], b[1..]) {
        SubseqMembers(a[1..], b[1..]);
        assert forall x :: x in a ==> x == a[0] || x in a[1..];
      } else {
        SubseqMembers(a, b[1..]);
      }
    }
  }

  lemma {:induction false} SubseqRefl<T>(a: seq<T>)
    ensures IsSubseq(a, a)
    decreases |a|
  {
    if a != [] {
      SubseqRefl(a[1..]);
    }
  }

  lemma {:induction false} SubseqTrans<T>(a: seq<T>, b: seq<T>, c: seq<T>)
    requires IsSubseq(a, b) && IsSubseq(b, c)
    ensures IsSubseq(a, c)
    decreases |c|
  {
    if a != [] {
      assert b != [] && c != [];
      if b[0] == c[0] && IsSubseq(b[1..], c[1..]) {
        if a[0] == b[0] && IsSubseq(a[1..], b[1..]) {
          SubseqTrans(a[1..], b[1..], c[1..]);
        } else {
          SubseqTrans(a, b[1..], c[1..]);
        }
      } else {
        SubseqTrans(a, b, c[1..]);
      }
    }
  }

  /** Filtering twice by the same mask is the same as filtering once. */
  lemma {:induction false} FilterIdempotent<T>(s: seq<T>, p: T -> bool)
    ensures Filter(Filter(s, p), p) == Filter(s, p)
  {
    var r := Filter(s, p);
    assert forall i :: 0 <= i < |r| ==> p(r[i]) by {
      forall i | 0 <= i < |r| ensures p(r[i]) {
        assert r[i] in r;
      }
    }
    FilterAll(r, p);
  }

  /** Filtering by `p` and then by `q` is filtering once by their
      conjunction `pq`. */
  lemma {:induction false} FilterFilter<T>(s: seq<T>, p: T -> bool, q: T -> bool, pq: T -> bool)
    requires forall x :: pq(x) == (p(x) && q(x))
    ensures Filter(Filter(s, p), q) == Filter(s, pq)
    decreases |s|
  {
    if s != [] {
      FilterFilter(s[1..], p, q, pq);
      var a := Filter(s, p);
      assert pq(s[0]) == (p(s[0]) && q(s[0]));
      if p(s[0]) {
        assert a == [s[0]] + Filter(s[1..], p);
        assert a[0] == s[0] && a[1..] == Filter(s[1..], p);
        assert Filter(a, q) == (if q(s[0]) then [s[0]] else []) + Filter(a[1..], q);
      } else {
        assert a == Filter(s[1..], p);
      }
    }
  }

  /** A subsequence of a sequence without repetitions has none either. */
  lemma {:induction false} SubseqDistinct<T>(a: seq<T>, b: seq<T>)
    requires IsSubseq(a, b) && Distinct(b)
    ensures Distinct(a)
    decreases |b|
  {
    if a != [] {
      assert Distinct(b[1..]);
      if a[0] == b[0] && IsSubseq(a[1..], b[1..]) {
        SubseqDistinct(a[1..], b[1..]);
        SubseqMembers(a[1..], b[1..]);
        forall i, j | 0 <= i < j < |a| ensures a[i] != a[j] {
          if i == 0 {
            assert a[j] in a[1..];
            assert a[j] in b[1..];
          } else {
            assert a[i] == a[1..][i - 1] && a[j] == a[1..][j - 1];
          }
        }
      } else {
        SubseqDistinct(a, b[1..]);
      }
    }
  }

  /** A three-element sequence is the display of its elements. */
  lemma Three<T>(s: seq<T>, a: T, b: T, c: T)
    requires |s| == 3 && s[0] == a && s[1] == b && s[2] == c
    ensures s == [a, b, c]
  {
  }
}

=== FILE: tables.dfy ===
/** A data frame as an ordered list of column names and a sequence of rows,
    each row a map from column name to cell; and the column-level and
    row-level operations the pipeline builds on. */
module Tables {
  import opened Seqs
  import opened Cells

  type Row = map<string, Cell>

  datatype Table = Table(cols: seq<string>, rows: seq<Row>)

  /** The cell of row `r` in column `c`; a column the row lacks reads as
      missing. */
  function Get(r: Row, c: string): Cell
  {
    if c in r then r[c] else Missing
  }

  /** Column labels are unique and every row carries exactly those labels. */
  predicate Wf(t: Table)
  {
    Distinct(t.cols) && forall i :: 0 <= i < |t.rows| ==> t.rows[i].Keys == Labels(t.cols)
  }

  function Labels(cols: seq<string>): set<string>
  {
    set c | c in cols
  }

  /** `df[c]`, read positionally. */
  function Column(t: Table, c: string): (s: seq<Cell>)
    ensures |s| == |t.rows|
    ensures forall i :: 0 <= i < |s| ==> s[i] == Get(t.rows[i], c)
  {
    seq(|t.rows|, i requires 0 <= i < |t.rows| => Get(t.rows[i], c))
  }

  /** The numeric view of column `c`. */
  function Values(t: Table, c: string): (r: seq<Ext>)
    ensures |r| == |t.rows|
    ensures forall i :: 0 <= i < |r| ==> r[i] == AsExt(Get(t.rows[i], c))
  {
    seq(|t.rows|, i requires 0 <= i < |t.rows| => AsExt(Get(t.rows[i], c)))
  }

  /** A column written with `df[c] = cells` reads back as `cells`. */
  lemma ColumnOfSetColumn(t: Table, c: string, cells: seq<Cell>)
    requires |cells| == |t.rows|
    ensures Column(SetColumn(t, c, cells), c) == cells
  {
    var r := Column(SetColumn(t, c, cells), c);
    assert forall i :: 0 <= i < |r| ==> r[i] == cells[i];
  }

  /** No cell of column `c` makes a numeric comparison raise. */
  predicate NumericColumn(t: Table, c: string)
  {
    forall i :: 0 <= i < |t.rows| ==> IsNumeric(Get(t.rows[i], c))
  }

  /** `df[c] = cells`: an existing column is overwritten in place, a new one
      is appended at the right. */
  function SetColumn(t: Table, c: string, cells: seq<Cell>): (r: Table)
    requires |cells| == |t.rows|
    ensures Wf(t) ==> Wf(r)
    ensures |r.rows| == |t.rows|
    ensures forall d :: d in r.cols <==> d in t.cols || d == c
    ensures c in t.cols ==> r.cols == t.cols
    ensures forall i :: 0 <= i < |r.rows| ==> Get(r.rows[i], c) == cells[i]
    ensures forall i, d :: 0 <= i < |r.rows| && d != c ==> Get(r.rows[i], d) == Get(t.rows[i], d)
  {
    var cols := if c in t.cols then t.cols else t.cols + [c];
    var rows := seq(|t.rows|, i requires 0 <= i < |t.rows| => t.rows[i][c := cells[i]]);
    var r := Table(cols, rows);
    assert Wf(t) ==> Distinct(cols) by {
      if Wf(t) && c !in t.cols {
        forall i, j | 0 <= i < j < |cols| ensures cols[i] != cols[j] {
          if j == |t.cols| {
            assert cols[i] in t.cols;
          }
        }
      }
    }
    r
  }

  /** `df[c] = df[c].map(f)`. */
  function MapColumn(t: Table, c: string, f: Cell -> Cell): (r: Table)
    ensures Wf(t) ==> Wf(r)
    ensures |r.rows| == |t.rows|
    ensures c in t.cols ==> r.cols == t.cols
    ensures forall i :: 0 <= i < |r.rows| ==> Get(r.rows[i], c) == f(Get(t.rows[i], c))
    ensures forall i, d :: 0 <= i < |r.rows| && d != c ==> Get(r.rows[i], d) == Get(t.rows[i], d)
  {
    SetColumn(t, c, seq(|t.rows|, i requires 0 <= i < |t.rows| => f(Get(t.rows[i], c))))
  }

  /** Mapping a column with a function that fixes all of its cells gives
      back the same table. */
  lemma MapColumnFixed(t: Table, c: string, f: Cell -> Cell)
    requires Wf(t) && c in t.cols
    requires forall i :: 0 <= i < |t.rows| ==> f(Get(t.rows[i], c)) == Get(t.rows[i], c)
    ensures MapColumn(t, c, f) == t
  {
    var r := MapColumn(t, c, f);
    forall i | 0 <= i < |t.rows| ensures r.rows[i] == t.rows[i] {
      assert c in t.rows[i];
      assert r.rows[i] == t.rows[i][c := f(Get(t.rows[i], c))];
    }
  }

  /** `row` with `f` applied to the cells of the labels in `names`. */
  function MapCells(row: Row, names: set<string>, f: Cell -> Cell): (m: Row)
    ensures m.Keys == row.Keys + names
    ensures forall c :: c in names ==> m[c] == f(Get(row, c))
    ensures forall c :: c in row && c !in names ==> m[c] == row[c]
  {
    map c | c in row.Keys + names :: if c in names then f(Get(row, c)) else row[c]
  }

  /** `for c in names: if c in df: df[c] = df[c].map(f)`: each listed column
      that is present is mapped cell by cell; absent ones are skipped. */
  function MapColumns(t: Table, names: set<string>, f: Cell -> Cell): (r: Table)
    ensures r.cols == t.cols && |r.rows| == |t.rows|
    ensures Wf(t) ==> Wf(r)
    ensures forall i, c :: 0 <= i < |t.rows| && c in names && c in t.cols ==>
      Get(r.rows[i], c) == f(Get(t.rows[i], c))
    ensures forall i, c :: 0 <= i < |t.rows| && (c !in names || c !in t.cols) ==>
      Get(r.rows[i], c) == Get(t.rows[i], c)
  {
    var present := set c | c in names && c in t.cols;
    Table(t.cols, seq(|t.rows|, i requires 0 <= i < |t.rows| => MapCells(t.rows[i], present, f)))
  }

  /** Mapping columns with a function that fixes every cell it meets gives
      back the same table. */
  lemma MapColumnsFixed(t: Table, names: set<string>, f: Cell -> Cell)
    requires Wf(t)
    requires forall i, c :: 0 <= i < |t.rows| && c in names && c in t.cols ==>
      f(Get(t.rows[i], c)) == Get(t.rows[i], c)
    ensures MapColumns(t, names, f) == t
  {
    var r := MapColumns(t, names, f);
    forall i | 0 <= i < |t.rows| ensures r.rows[i] == t.rows[i] {
      assert r.rows[i].Keys == t.rows[i].Keys;
    }
  }

  /** `df.columns = labels`: the cell under `t.cols[k]` moves to `labels[k]`. */
  function RenameColumns(t: Table, labels: seq<string>): (r: Table)
    requires |labels| == |t.cols| && Distinct(labels)
    ensures Wf(r)
    ensures r.cols == labels && |r.rows| == |t.rows|
    ensures forall i, k :: 0 <= i < |t.rows| && 0 <= k < |t.cols| ==>
      Get(r.rows[i], labels[k]) == Get(t.rows[i], t.cols[k])
  {
    Table(labels, seq(|t.rows|, i requires 0 <= i < |t.rows| => Relabel(t.cols, labels, t.rows[i])))
  }

  /** The row with the cell of `cols[k]` moved to the label `labels[k]`. */
  function Relabel(cols: seq<string>, labels: seq<string>, row: Row): (m: Row)
    requires |labels| == |cols| && Distinct(labels)
    ensures m.Keys == Labels(labels)
    ensures forall k :: 0 <= k < |cols| ==> m[labels[k]] == Get(row, cols[k])
  {
    map k | 0 <= k < |labels| :: labels[k] := Get(row, cols[k])
  }

  /** Renaming the columns of a well-formed table to their own labels
      changes nothing. */
  lemma RenameSame(t: Table)
    requires Wf(t)
    ensures RenameColumns(t, t.cols) == t
  {
    var r := RenameColumns(t, t.cols);
    forall i | 0 <= i < |t.rows| ensures r.rows[i] == t.rows[i] {
      var m := r.rows[i];
      forall c | c in m.Keys ensures m[c] == t.rows[i][c] {
        var k :| 0 <= k < |t.cols| && t.cols[k] == c;
      }
    }
  }

  /** `df.drop(columns=names, errors='ignore')`: labels that are absent are
      skipped. */
  function DropColumns(t: Table, names: set<string>): (r: Table)
    ensures Wf(t) ==> Wf(r)
    ensures |r.rows| == |t.rows|
    ensures IsSubseq(r.cols, t.cols)
    ensures forall d :: d in r.cols <==> d in t.cols && d !in names
    ensures forall i, d :: 0 <= i < |r.rows| && d !in names ==> Get(r.rows[i], d) == Get(t.rows[i], d)
    ensures forall i, d :: 0 <= i < |r.rows| && d in names ==> d !in r.rows[i]
    ensures forall i :: 0 <= i < |r.rows| ==> r.rows[i] == t.rows[i] - names
  {
    var keep := c => c !in names;
    var cols := Filter(t.cols, keep);
    assert IsSubseq(cols, t.cols) && (Distinct(t.cols) ==> Distinct(cols)) by {
      FilterIsSubseq(t.cols, keep);
      if Distinct(t.cols) {
        SubseqDistinct(cols, t.cols);
      }
    }
    assert forall c :: c in t.cols && c !in names ==> c in cols by {
      forall c | c in t.cols && c !in names ensures c in cols {
        var k :| 0 <= k < |t.cols| && t.cols[k] == c;
        FilterKeeps(t.cols, keep, k);
      }
    }
    Table(cols, seq(|t.rows|, i requires 0 <= i < |t.rows| => t.rows[i] - names))
  }

  /** `df[mask]`: the rows that pass, in order, under the same columns. */
  function Where(t: Table, keep: Row -> bool): (r: Table)
    ensures r.cols == t.cols
    ensures Wf(t) ==> Wf(r)
    ensures IsSubseq(r.rows, t.rows)
    ensures forall i :: 0 <= i < |r.rows| ==> keep(r.rows[i])
    ensures forall i :: 0 <= i < |t.rows| && keep(t.rows[i]) ==> t.rows[i] in r.rows
    ensures |t.rows| - |r.rows| == CountNot(t.rows, keep)
  {
    var rows := Filter(t.rows, keep);
    FilterIsSubseq(t.rows, keep);
    FilterCount(t.rows, keep);
    assert forall i :: 0 <= i < |t.rows| && keep(t.rows[i]) ==> t.rows[i] in rows by {
      forall i | 0 <= i < |t.rows| && keep(t.rows[i]) ensures t.rows[i] in rows {
        FilterKeeps(t.rows, keep, i);
      }
    }
    assert forall i :: 0 <= i < |rows| ==> keep(rows[i]) by {
      forall i | 0 <= i < |rows| ensures keep(rows[i]) {
        assert rows[i] in rows;
      }
    }
    Table(t.cols, rows)
  }
}
